=== FILE: README.md ===
# shorte.live API core in Dafny

This project models the core of the shorte.live URL-shortener API (Go): the
redirect decision that answers `GET /{short}`, the management handlers
around it, the Redis-backed click-event buffer that feeds the TimescaleDB
analytics store, the bulk insert and the per-link statistics query, and the
`UnixTime` column type they share.

Everything is a pure function over immutable values. The stores are values
too:

- the Redis cache is a `map<string, Url>`;
- the Redis event list is a `seq<string>`, newest entry first;
- the analytics table is a `seq<ClickRow>`.

Each handler returns its HTTP response together with the store operations
it issues, in order. Collaborators whose code is not part of this model
are parameters:

- the rate limiter;
- the maintenance switch;
- the URL and short validators;
- the https enforcer;
- the Mongo model calls.

The clock is an integer number of Unix seconds.

Modules:

| file | module | models |
|---|---|---|
| `wrappers.dfy` | `Wrappers` | `Option` / `Result` |
| `strconv.dfy` | `Strconv` | Go's `strconv.ParseBool` and `strconv.ParseInt(s, 10, 64)` with the error discarded, as the handlers call them |
| `schema.dfy` | `Schema` | `api/database/schema.go`: `UnixTime.Value` / `Scan`, `URL`, `ClickEvent` |
| `redis.dfy` | `RedisModel` | `LRANGE`, `LTRIM`, `LPUSH`, `SET`, `DEL` on values |
| `codec.dfy` | `EventCodec` | a length-prefixed text encoding standing in for the BSON of a `ClickEvent` |
| `timescale.dfy` | `Timescale` | `api/timescale/main.go`: `InsertClickEventsBulk`, `QueryClickEvents` |
| `tracking.dfy` | `Tracking` | `api/helpers/tracking.go`: the `TrackerType` buffer and its flusher |
| `controllers.dfy` | `UrlController` | `api/controllers/url.go`: `ResolveURL`, `ShortenURL`, `UpdateUrl`, `DeleteUrl`, `GetURLStats` |

Two behaviours of the code worth stating plainly:

- **Capture and the environment.** A redirect's click is captured only when
  `ENV` is not the production value (`api/controllers/url.go:177`).
- **The cache read under `revalidate`.** The cache is read on every
  admitted resolve, `revalidate` included (`api/controllers/url.go:132`).
  With `revalidate` its answer is ignored.

## Model

| member | source | states |
|---|---|---|
| Strconv.ParseBool | api/controllers/url.go:105-109 | the revalidate flag parses to a boolean exactly for Go's twelve accepted spellings, true for the six true ones and false for the six false ones; anything else is a parse error |
| Strconv.ParseBoolFormatBool | api/controllers/url.go:105-109 | formatting a boolean and parsing it back gives the boolean |
| Strconv.ParseInt64 | api/controllers/url.go:280 | a query parameter read with the parse error discarded always lands in the int64 range |
| Strconv.ParseInt64Digits | api/controllers/url.go:280 | an optionally signed run of digits reads as its value, clamped to the int64 bound on the sign's side when it overflows |
| Strconv.ParseFormatInt | api/controllers/url.go:280 | every int64 written in decimal parses back to itself |
| Strconv.ParseInt64NonDigit | api/controllers/url.go:290 | a parameter whose digits are followed by a non-digit (and do not overflow first) reads as 0 |
| Strconv.ScanUintDigits | api/controllers/url.go:280 | the digit loop over an all-digit string yields the value of the digits, or a range error exactly when that value exceeds 2^64-1 |
| Strconv.HornerIsValue | api/controllers/url.go:280 | reading digits front to back, as the loop does, gives the number they denote |
| Strconv.DigitsRoundTrip | api/controllers/url.go:280 | the decimal rendering of a natural number denotes that number |
| Schema.Value | api/database/schema.go:14-16 | a `UnixTime` goes to the driver as the time exactly that many seconds after the epoch, with no error |
| Schema.Scan | api/database/schema.go:18-26 | a time value sets the receiver to its Unix seconds; any other value leaves the receiver unchanged and reports it cannot be converted |
| Schema.ScanValueRoundTrip | api/database/schema.go:14-26 | a `UnixTime` written with `Value` and read back with `Scan` is restored, whatever the receiver held |
| RedisModel.LRange | api/helpers/tracking.go:40 | `LRANGE` returns the clipped, inclusive window of the list, element for element |
| RedisModel.LRangeHead | api/helpers/tracking.go:40 | `LRANGE 0 stop` is the first `stop + 1` entries (fewer if the list is shorter) |
| RedisModel.LTrimTail | api/helpers/tracking.go:45 | `LTRIM start -1` drops exactly the first `start` entries (all of them if the list is shorter) |
| RedisModel.LPush | api/helpers/tracking.go:69 | `LPUSH` puts the new entry at the head and keeps the rest of the list |
| RedisModel.Set | api/controllers/url.go:150 | a cache write stores the key and leaves every other key as it was |
| RedisModel.Del | api/controllers/url.go:239 | a cache delete removes the key and leaves every other key as it was |
| EventCodec.ReadFieldsOfFields | api/helpers/tracking.go:66 | a sequence of encoded fields decodes back to the same fields |
| EventCodec.DecodeEncode | api/helpers/tracking.go:52-66 | an event encoded for the list and decoded by the flusher is the same event |
| Timescale.QueueInserts | api/timescale/main.go:80-84 | the batch holds one insert per event, in order, each with the six-column SQL and the event's fields, its time argument being `time.Unix(u, 0)`, a whole second |
| Timescale.InsertClickEventsBulk | api/timescale/main.go:68-97 | the insert succeeds iff connecting and executing succeed and returns their error otherwise; on success the old rows are untouched and one new row per event follows, carrying that event's link and whole-second timestamp and reading back as that event |
| Timescale.InsertThenSelect | api/timescale/main.go:68-144 | an inserted event is seen by the statistics query: its row is selected by every window of its link that contains its second, as often as it occurs in the table |
| Timescale.Select | api/timescale/main.go:101 | the query returns each row as often as the table holds it if it is for this link and inside the inclusive window, and not at all otherwise |
| Timescale.InWindowSeconds | api/timescale/main.go:101 | for whole-second timestamps the window is `start <= timestamp <= end` |
| Timescale.TallyCounts | api/timescale/main.go:132-141 | the counting loop maps every value seen to its number of occurrences; `"total"` is present once anything was seen and holds the row count plus the occurrences of the literal value `"total"`; nothing else is a key |
| Timescale.Column | api/timescale/main.go:117-123 | the values of one dimension over the selected rows, position by position |
| Timescale.Aggregate | api/timescale/main.go:125-130 | the result always has exactly the four dimension keys |
| Timescale.QueryClickEvents | api/timescale/main.go:99-144 | a query error is returned as is; otherwise the result has exactly the four dimension keys |
| Timescale.QueryCounts | api/timescale/main.go:99-144 | in every dimension, each non-`"total"` value counts the selected rows that carry it; `"total"` counts the selected rows plus rows whose value is literally `"total"`; with no selected row the dimension is empty |
| Timescale.TotalIsRowCount | api/timescale/main.go:137-140 | when no row carries the literal value `"total"`, a dimension's `"total"` is the number of rows |
| Timescale.ColumnPermutation | api/timescale/main.go:132-141 | rows that are a permutation of each other give columns that are a permutation of each other |
| Timescale.TallyPermutation | api/timescale/main.go:132-141 | a tally depends only on how often each value occurs, not on their order |
| Timescale.QueryOrderIndependent | api/timescale/main.go:99-144 | two tables holding the same rows in any order give the same statistics |
| Tracking.EventOf | api/helpers/tracking.go:59-64 | a captured event carries the request's link, device, OS, referrer and timestamp, with the geography placeholder `"null"`; the client address is not kept |
| Tracking.DecodeAll | api/helpers/tracking.go:48-54 | the flushed batch has one event per read entry, in order, each decoded with the error ignored |
| Tracking.Flush | api/helpers/tracking.go:36-57 | the counter is reset; the first `eventsLength + 1` entries are read and decoded; only the first `eventsLength` are trimmed |
| Tracking.FlushReadVersusTrim | api/helpers/tracking.go:40-45 | every trimmed entry was read; at most one more entry is read than trimmed; when the list is longer than the counter, the entry at index `eventsLength` is both flushed and kept |
| Tracking.IdleTickFlushesHead | api/helpers/tracking.go:40-46 | a tick with a zero counter over a non-empty list flushes the head entry and leaves the list unchanged |
| Tracking.RestartTicksRepeatHead | api/helpers/tracking.go:80-96 | after a restart with counter 0 over a non-empty list, every one of `n` ticks flushes the same head entry again |
| Tracking.FlushFixed | api/helpers/tracking.go:36-57 | the corrected flush reads exactly the entries it trims: read followed by kept is the old list, and at most `eventsLength` entries are read |
| Tracking.Push | api/helpers/tracking.go:66-74 | a capture pushes the encoded event at the head and increments the counter |
| Tracking.CaptureRedirectEvent | api/helpers/tracking.go:59-78 | a capture flushes iff the incremented counter reaches `maxEvents`; it flushes the pushed state |
| Tracking.CaptureRedirectEventFixed | api/helpers/tracking.go:59-78 | the same capture using the corrected flush |
| Tracking.FlushToDB | api/helpers/tracking.go:28-34 | an empty batch touches nothing; a non-empty one is stored exactly when the insert executes, the table gaining exactly its rows, and a failed insert is fatal with the insert's error |
| Tracking.SetupTracker | api/helpers/tracking.go:89-96 | setup drops the first `eventsLength` entries of the list and starts a tracker with the given settings |
| Tracking.ConsistentFlushDrains | api/helpers/tracking.go:36-57 | while the counter equals the list length, a flush reads the whole list once and leaves it empty |
| Tracking.CaptureKeepsConsistent | api/helpers/tracking.go:59-78 | a capture keeps the counter equal to the list length; a flush it triggers reads the new entry and the old list |
| Tracking.CaptureRun | api/helpers/tracking.go:59-78 | across a run of captures with the written flush, as long as the counter starts equal to the list length: that equality survives the run, and the entries read plus those left equal the entries there were plus those pushed (none lost, none read twice) |
| Tracking.CaptureRunFixed | api/helpers/tracking.go:59-78 | with the corrected flush the same conservation holds from any starting state, whatever the counter says |
| Tracking.CapturesThenTickDeliverEach | api/helpers/tracking.go:36-87 | captures from an empty buffer followed by one tick hand every captured event to the store exactly once and leave the list empty; each entry decodes to its event |
| UrlController.ResolvePolicy | api/controllers/url.go:118-121 | the resolve route uses the configured `"dynamic"` policy, or 100 requests per 30 seconds when there is none |
| UrlController.Revalidate | api/controllers/url.go:105-109 | revalidation is on exactly for a true spelling of `revalidate`; a parse error means off |
| UrlController.FirstField | api/controllers/url.go:166 | the client address is the prefix of `X-Forwarded-For` before its first comma, or all of it when it has no comma |
| UrlController.CaptureOf | api/controllers/url.go:161-178 | the capture carries the parsed device and OS, the first forwarded address, the referrer (`"direct"` when absent), the record's id and the capture time |
| UrlController.Lookup | api/controllers/url.go:132-184 | after admission the cache is read first, and the database exactly when the cache holds no record or revalidation is asked; these are the only store steps. A cache answer redirects iff the record has not expired, else 307, and never writes the cache. On the database path: a store error is a 400 with its message; a missing or expired record is a 307 to the not-found page without a cache write; a live record is cached for its remaining lifetime and redirected to with a 301. A 301 carries the capture of that record's click outside production |
| UrlController.ResolveUrl | api/controllers/url.go:100-185 | maintenance gives a 301 to the maintenance page with no other step; otherwise the limiter runs first under the resolve policy and a refusal is a 429 with the quota message and no other step; an admitted request continues as `Lookup` decides; the database is read iff the request was admitted and the cache cannot serve it; a click is captured iff the answer is a 301 to a destination and the environment is not production |
| UrlController.RepeatWithinTtlSkipsDb | api/controllers/url.go:132-150 | once a resolve has cached a live record, a later resolve of the same short within the record's lifetime gives the same redirect without reading the database, whatever the database would say |
| UrlController.ExpiredIsNotFound | api/controllers/url.go:137-159 | a record past its expiry leads to the not-found redirect, from the cache and from the database alike |
| UrlController.ContainsString | api/controllers/url.go:72 | the reserved-short test is list membership (the helper's body is assumed to be a membership test) |
| UrlController.ShortenUrl | api/controllers/url.go:44-98 | a record is created iff: the body decodes; the user's limiter allows; the destination is a URL with an acceptable domain; and the short is empty or neither reserved nor invalid. It is created with the https-forced destination and an expiry below the lowest allowed replaced by now plus 48 hours. A refused short is a 400 "can't use this short" after only the limiter step; a refusal by the limiter is a 429 after the single limiter step; an undecodable body is a 400 with its error and no step; a destination that is not a usable URL is a 400 "invalid url"; once every check passes, a created record is a 201 echoing what the store recorded and a store error is a 400 with its message |
| UrlController.MergeUpdate | api/controllers/url.go:222-232 | an empty short or destination, or an expiry below the lowest allowed, falls back to the stored record's value |
| UrlController.UpdateUrl | api/controllers/url.go:205-243 | the cache entry of the record's OLD short is deleted iff the body decodes, the record is found and the update succeeds, and then the answer is 204; an undecodable body, a lookup failure and an update failure are each a 400 with their message |
| UrlController.DeleteUrl | api/controllers/url.go:245-265 | the cache entry of the record's short is deleted iff the lookup and the delete succeed, and then the answer is 204; a lookup or delete failure is a 400 with its message |
| UrlController.UpdateInvalidatesOldShort | api/controllers/url.go:239 | after a successful update the next resolve of the old short reads the database instead of a stale cache entry, and every other cache entry is kept |
| UrlController.DeleteInvalidatesShort | api/controllers/url.go:261 | after a successful delete the next resolve of the short reads the database and, once the store finds nothing, redirects to not-found; every other cache entry is kept |
| UrlController.StatsWindow | api/controllers/url.go:274-295 | no parameters give the last 24 hours. A start outside [2024-01-01, now] is refused. An end after now is refused. Otherwise the parsed bounds are used, with no check that start precedes end |
| UrlController.GetUrlStats | api/controllers/url.go:267-316 | a bad window is a 400 with no store step; a caller who is not the owner gets a 401; a 200 carries exactly the statistics of the owner's link over the window; a lookup or query failure is a 400 with its message, a query failure after the lookup and the query steps |
| UrlController.UnparsableBounds | api/controllers/url.go:277-295 | an end whose digits are followed by a non-digit, with no overflow before it, reads as 0 and passes the window check; such a start is refused by it |
| UrlController.OverflowingEnd | api/controllers/url.go:290-295 | an end whose digits overflow int64 clamps instead of reading as 0: a positive overflow is refused by the window check as "invalid end time", a negative one past the int64 minimum passes the window check as that minimum |
| UrlController.InvertedWindowIsEmpty | api/timescale/main.go:99-144 | a window whose start is after its end selects no row, so its aggregate is four empty count maps |

## Left out

- I/O: the HTTP plumbing (headers, `Cache-Control`, JSON encoding of responses), the printing of logs, and process exit on `log.Fatal` (an `LRANGE` error in `flush`, an `LPUSH` error in `CaptureRedirectEvent`, a row-scan error in `QueryClickEvents`) are not modelled. A failed bulk insert surfaces as `Tracking.FlushToDB`'s `Fatal`.
- Concurrency: every handler and tracker step is one sequential transition. Two behaviours are outside the model: an `LPUSH` that lands between a flush's `LRANGE` and `LTRIM`, and the increment in `CaptureRedirectEvent` made without the tracker's mutex. The cache write, cache delete and capture goroutines are recorded as steps, not scheduled.
- RedisModel.LTrim: never fails. The source discards the result of both `LTRIM` calls (`api/helpers/tracking.go:45` in `flush` and `api/helpers/tracking.go:90` in `SetupTracker`). After a failed trim in `flush` the counter is still reset, so the entries just read stay in the list and are flushed again.
- Schema.Live: the clock is whole seconds, so `now <= expiry` stands for `!now.After(time.Unix(expiry, 0))`. A request in the fraction of a second after `expiry` counts as live here but is expired in the source.
- UrlController.ResolveUrl: the cache TTL is recorded as `expiry - now` seconds. How go-redis treats a zero or negative duration is not modelled.
- UrlController.GetUrlStats: whether the query fails is a free input (`queryError`). Postgres refuses `to_timestamp` of seconds far outside its range (`api/timescale/main.go:101`), so a very negative bound (an inverted window such as `end=-300000000000`, or an end clamped to the int64 minimum) is in the source a 400 from the query, not an empty result. The model does not tie the query error to the bounds.
- UrlController.GetUrlStats: the source reads the clock separately for each check; here all checks use one `now`.
- The BSON layout of a `ClickEvent` and the JSON layout of a cached `URL` are not modelled; the length-prefixed codec in `EventCodec` stands in for them. Only its round trip matters to the tracker.
- The rate limiter, maintenance switch, `IsURL`, `RemoverDomainError`, `NotValidShortString`, `EnforceHTTP`, `LowestUnixTime`, the user-agent parser and the Mongo model calls (`GetURL`, `CreateURL`, `UpdateUserURL`, `DeleteURL`) are not part of this model. They are parameters.
- The value of `constants.Prod` is taken to be `"production"`.
- `GetUserURL` and the user routes are not part of the modelled core.
- A nil record returned without an error (`api/controllers/url.go:299`) is not modelled.
- `eventsLength` is an unbounded integer: a Go `int` overflow of the counter is not modelled.
- UrlController.ShortenUrl: a JSON body `null` decodes without error and leaves the request pointer nil, so the handler passes the rate limiter and then dereferences nil (`api/controllers/url.go:61`). The model's body is either a decoded request or an error and has no nil case, so this panic is not modelled.
- UrlController.UpdateUrl: likewise a `null` body decodes to a nil pointer, and the handler looks the record up and then dereferences nil (`api/controllers/url.go:222`). Not modelled, for the same reason.
- Timescale.QueryClickEvents: the source never calls `rows.Err()` after its `rows.Next()` loop (`api/timescale/main.go:114-123`). An error during iteration ends the loop early, and the partial counts are returned as a success. The model has only an error from `Query` itself or a complete read.
- Tracking.DecodeAll: the stand-in codec decodes all or nothing. `bson.Unmarshal` fills fields one by one, so a corrupt entry can keep the fields read before the fault. A well-formed document with other keys decodes to the zero event without an error.
- One Redis key space: the model keeps the URL cache (`map<string, Url>`) apart from the event list (`seq<string>`). In the source both live under the same keys. A record whose short is `track_event` (`api/helpers/tracking.go:17`) would collide with the event list. `UpdateUrl` does not validate a new short (`api/controllers/url.go:222-234`), so such a record can exist. Resolving it would overwrite the list with the cached record, after which the next flush's `LRANGE` fails and ends the process. That assumes `SetJSON` is a plain `SET`; its code is not part of this model.
- Timescale.InsertClickEventsBulk: `Exec` on a pgx batch reports the first statement's result only. The model takes an executed batch as inserting every row.

## Findings

| source | as written | input that shows it | evidently intended | confidence | as-written member | corrected member |
|---|---|---|---|---|---|---|
| api/helpers/tracking.go:40-45 | `flush` reads `LRANGE 0 eventsLength` (stop inclusive, so `eventsLength + 1` entries) but trims only `LTRIM eventsLength -1` (the first `eventsLength` entries). Whenever the list is longer than the counter, the entry at index `eventsLength` is inserted into the analytics store and also left in the list to be inserted again. | `eventsLength = 0` with list `[x]`, e.g. after a restart (`SetupTracker(_, _, 0)`) over left-over entries or during concurrent pushes. Every timer tick inserts `x` again and the list never shrinks. | `LRANGE 0 eventsLength-1` (nothing when the counter is 0), so exactly the trimmed entries are flushed | not executed | Tracking.Flush, Tracking.FlushReadVersusTrim, Tracking.IdleTickFlushesHead, Tracking.RestartTicksRepeatHead | Tracking.FlushFixed, Tracking.CaptureRedirectEventFixed, Tracking.CaptureRunFixed |

=== FILE: codec.dfy ===
/** How a click event is stored as one entry of the Redis staging list.
    The program serialises with BSON; this model uses a simpler
    length-prefixed text layout (`<decimal length>:<bytes>` per field, six
    fields in declaration order) that has the one property the flusher
    relies on: decoding an encoded event gives the event back. */
module EventCodec {
  import opened Wrappers
  import opened Strconv
  import opened Schema

  /** One length-prefixed field. */
  function Field(s: string): string {
    NatToDigits(|s|) + ":" + s
  }

  /** The fields of a record, one after the other. */
  function Fields(fs: seq<string>): string {
    if fs == [] then "" else Field(fs[0]) + Fields(fs[1..])
  }

  /** Length of the leading run of decimal digits of `t`. */
  function DigitRun(t: string): (n: nat)
    ensures n <= |t| && AllDigits(t[..n])
    ensures n < |t| ==> !IsDigit(t[n])
  {
    if t == [] || !IsDigit(t[0]) then 0
    else
      var n := 1 + DigitRun(t[1..]);
      assert t[..n] == [t[0]] + t[1..][..n - 1];
      n
  }

  /** Reads one field off the front of `t`: its contents and what follows. */
  function ReadField(t: string): (r: Option<(string, string)>)
    ensures r.Some? ==> |r.value.1| < |t|
  {
    var n := DigitRun(t);
    if n == 0 || n == |t| || t[n] != ':' then None
    else
      var len := DigitsValue(t[..n]);
      var rest := t[n + 1..];
      if len > |rest| then None else Some((rest[..len], rest[len..]))
  }

  /** Reads exactly `k` fields and requires nothing to be left over. */
  function ReadFields(t: string, k: nat): (r: Option<seq<string>>)
    ensures r.Some? ==> |r.value| == k
    decreases |t|
  {
    if k == 0 then (if t == [] then Some([]) else None)
    else match ReadField(t)
      case None => None
      case Some((f, rest)) =>
        match ReadFields(rest, k - 1)
        case None => None
        case Some(fs) => Some([f] + fs)
  }

  lemma {:induction false} DigitRunStopsAtColon(d: string, rest: string)
    requires AllDigits(d)
    ensures DigitRun(d + ":" + rest) == |d|
    decreases |d|
  {
    if d != [] {
      assert (d + ":" + rest)[1..] == d[1..] + ":" + rest;
      DigitRunStopsAtColon(d[1..], rest);
    }
  }

  lemma ReadFieldOfField(s: string, rest: string)
    ensures ReadField(Field(s) + rest) == Some((s, rest))
  {
    var d := NatToDigits(|s|);
    var t := Field(s) + rest;
    assert t == d + ":" + (s + rest);
    DigitRunStopsAtColon(d, s + rest);
    assert t[..|d|] == d;
    DigitsRoundTrip(|s|);
    assert t[|d| + 1..] == s + rest;
  }

  /** Reading back `k` encoded fields yields exactly those fields. */
  lemma {:induction false} ReadFieldsOfFields(fs: seq<string>)
    ensures ReadFields(Fields(fs), |fs|) == Some(fs)
    decreases |fs|
  {
    if fs != [] {
      ReadFieldOfField(fs[0], Fields(fs[1..]));
      ReadFieldsOfFields(fs[1..]);
      assert [fs[0]] + fs[1..] == fs;
    }
  }

  function Encode(e: ClickEvent): string {
    Fields([e.urlId, e.geo, e.device, e.os, e.referrer, FormatInt(e.timestamp)])
  }

  /** `None` when the entry is not a well-formed encoded event. */
  function Decode(t: string): Option<ClickEvent> {
    match ReadFields(t, 6)
    case None => None
    case Some(f) => Some(ClickEvent(f[0], f[1], f[2], f[3], f[4], ParseInt64(f[5])))
  }

  /** Decoding inverts encoding for every event whose timestamp fits the
      int64 of `database.UnixTime`. */
  lemma DecodeEncode(e: ClickEvent)
    requires MinInt64 <= e.timestamp <= MaxInt64
    ensures Decode(Encode(e)) == Some(e)
  {
    ReadFieldsOfFields([e.urlId, e.geo, e.device, e.os, e.referrer, FormatInt(e.timestamp)]);
    ParseFormatInt(e.timestamp);
  }
}

=== FILE: controllers.dfy ===
/** The request handlers of api/controllers/url.go as pure decisions. The
    stores, the clock, the environment and the helpers whose code is not
    part of this model (rate limiter, maintenance switch, URL validators)
    are parameters; each handler returns the HTTP response together with
    the store operations it performs, in order. */
module UrlController {
  import opened Wrappers
  import opened Schema
  import opened Strconv
  import opened RedisModel
  import opened Timescale
  import opened Tracking

  const StatusNoContent: int := 204
  const StatusMovedPermanently: int := 301
  const StatusTemporaryRedirect: int := 307
  const StatusBadRequest: int := 400
  const StatusUnauthorized: int := 401
  const StatusTooManyRequests: int := 429

  /** The value of `constants.Prod` that `helpers.ENV` is compared against. */
  const Production: string := "production"

  /** Process environment the handlers read: `ENV`,
      `FRONTEND_URL_MAINTENANCE` and `UI_NOT_FOUND_URL`. */
  datatype Environment = Environment(env: string, maintenanceUrl: string, notFoundUrl: string)

  /** The JSON body of a successful shorten. */
  datatype ShortenUrlResponse = ShortenUrlResponse(destination: string, short: string, expiry: int)

  datatype Response =
    | Redirect(status: int, location: string)
    | JsonError(status: int, message: string)
    | Created(body: ShortenUrlResponse)
    | NoContent
    | StatsOk(stats: ClickStats)

  /** `helpers.URLLimit`: at most `value` requests per `expiry` seconds. */
  datatype RateLimit = RateLimit(value: int, expiry: int)

  /** What `helpers.RateLimit` answered; `remaining` is the text
      `helpers.TimeRemaining(info)` renders for a refusal. */
  datatype RateVerdict = Allowed | Exhausted(remaining: string)

  /** `helpers.RateLimit(r, scope, limit)`, whose code is not part of this model. */
  type Limiter = (string, Option<RateLimit>) -> RateVerdict

  /** What `models.GetURL` returned. */
  datatype DbLookup = Found(url: Url) | NoDocuments | DbFailure(message: string)

  /** The store operations a handler performs, in the order it issues them. */
  datatype Step =
    | RateCheck(scope: string, limit: Option<RateLimit>)
    | CacheRead(key: string)
    | DbFindByShort(short: string)
    | DbFindById(id: string)
    | DbCreate(short: string, destination: string, expiry: int)
    | DbUpdate(update: UrlUpdate)
    | DbDelete(user: ObjectId, id: string)
    | StatsQuery(urlId: string, start: int, end: int)

  /** The arguments of `models.UpdateUserURL`. */
  datatype UrlUpdate = UrlUpdate(user: ObjectId, id: string, short: string, destination: string, expiry: int)

  /** A cache population: key, record and time to live in seconds. */
  datatype CacheWrite = CacheWrite(key: string, url: Url, ttl: int)

  function QuotaMessage(operation: string, remaining: string): string {
    "you have exhausted your quota for " + operation + ", " + remaining + " to retry again"
  }

  // ---------------------------------------------------------------------
  // ResolveURL
  // ---------------------------------------------------------------------

  /** The parts of a resolve request the handler reads. `device` and `os`
      are what the user-agent parser reports. */
  datatype ResolveRequest = ResolveRequest(
    short: string,
    revalidateParam: string,
    device: string,
    os: string,
    forwardedFor: string,
    referer: string)

  datatype ResolveOutcome = ResolveOutcome(
    response: Response,
    steps: seq<Step>,
    cacheWrite: Option<CacheWrite>,
    capture: Option<CaptureRequest>)

  /** The policy used when the configuration has no `"dynamic"` entry. */
  const DefaultResolveLimit: RateLimit := RateLimit(100, 30)

  /** The rate policy of the resolve route: the configured `"dynamic"`
      policy, or the default when none is configured. */
  function ResolvePolicy(config: map<string, RateLimit>): (p: RateLimit)
    ensures "dynamic" in config ==> p == config["dynamic"]
    ensures "dynamic" !in config ==> p == RateLimit(100, 30)
  {
    if "dynamic" in config then config["dynamic"] else DefaultResolveLimit
  }

  /** The `?revalidate=` flag: true only for a spelling `strconv.ParseBool`
      accepts as true; a parse error counts as false. */
  function Revalidate(param: string): (b: bool)
    ensures b <==> param in TrueSpellings
  {
    ParseBool(param) == Some(true)
  }

  /** `strings.Split(s, ",")[0]`: the text before the first comma. */
  function FirstField(s: string): (r: string)
    ensures r <= s && ',' !in r
    ensures |r| < |s| ==> s[|r|] == ','
  {
    if s == [] || s[0] == ',' then [] else [s[0]] + FirstField(s[1..])
  }

  /** The zero `database.URL` that `GetJSON` leaves behind on a cache miss. */
  const BlankUrl: Url := Url(NilObjectId, "", 0, "", NilObjectId, 0, 0, 0)

  /** What the cache lookup leaves in `url`. */
  function CachedRecord(cache: map<string, Url>, short: string): Url {
    if short in cache then cache[short] else BlankUrl
  }

  /** The cache answers without the database: a stored record with an id,
      and no revalidation asked for. */
  predicate CacheServes(cache: map<string, Url>, short: string, revalidate: bool) {
    CachedRecord(cache, short).id != NilObjectId && !revalidate
  }

  /** The capture a successful redirect hands to the tracker. */
  function CaptureOf(req: ResolveRequest, u: Url, captureTime: int): (c: CaptureRequest)
    ensures c.urlId == u.id && c.device == req.device && c.os == req.os && c.timestamp == captureTime
    ensures c.referrer == (if req.referer == "" then "direct" else req.referer)
    ensures c.ip == FirstField(req.forwardedFor)
  {
    CaptureRequest(req.device, FirstField(req.forwardedFor), req.os,
                   if req.referer == "" then "direct" else req.referer, u.id, captureTime)
  }

  function NotFoundRedirect(env: Environment): Response {
    Redirect(StatusTemporaryRedirect, env.notFoundUrl)
  }

  function Redirected(req: ResolveRequest, env: Environment, u: Url, steps: seq<Step>,
                      cacheWrite: Option<CacheWrite>, captureTime: int): ResolveOutcome {
    ResolveOutcome(Redirect(StatusMovedPermanently, u.destination), steps, cacheWrite,
                   if env.env != Production then Some(CaptureOf(req, u, captureTime)) else None)
  }

  /** The part of `ResolveURL` after admission: the cache read, the
      database fallback, the soft-expiry checks and the capture. */
  function Lookup(req: ResolveRequest, env: Environment, revalidate: bool, cache: map<string, Url>,
                  db: DbLookup, now: int, captureTime: int): (o: ResolveOutcome)
    // The cache read, then the database lookup only when the cache cannot
    // serve; no other store is touched.
    ensures o.steps == [CacheRead(req.short)] +
                       (if CacheServes(cache, req.short, revalidate) then [] else [DbFindByShort(req.short)])
    ensures CacheServes(cache, req.short, revalidate) ==>
      o.cacheWrite == None &&
      if Live(CachedRecord(cache, req.short), now)
      then o.response == Redirect(StatusMovedPermanently, CachedRecord(cache, req.short).destination) &&
           o.capture == (if env.env != Production then Some(CaptureOf(req, CachedRecord(cache, req.short), captureTime)) else None)
      else o.response == NotFoundRedirect(env) && o.capture == None
    ensures !CacheServes(cache, req.short, revalidate) ==>
      match db
      case DbFailure(m) => o.response == JsonError(StatusBadRequest, m) && o.cacheWrite == None && o.capture == None
      case NoDocuments => o.response == NotFoundRedirect(env) && o.cacheWrite == None && o.capture == None
      case Found(u) =>
        if Live(u, now)
        then o.response == Redirect(StatusMovedPermanently, u.destination) &&
             o.cacheWrite == Some(CacheWrite(req.short, u, u.expiry - now)) && u.expiry - now >= 0 &&
             o.capture == (if env.env != Production then Some(CaptureOf(req, u, captureTime)) else None)
        else o.response == NotFoundRedirect(env) && o.cacheWrite == None && o.capture == None
  {
    var read := [CacheRead(req.short)];
    var cached := CachedRecord(cache, req.short);
    if cached.id != NilObjectId && !revalidate then
      if Live(cached, now) then Redirected(req, env, cached, read, None, captureTime)
      else ResolveOutcome(NotFoundRedirect(env), read, None, None)
    else
      var looked := read + [DbFindByShort(req.short)];
      match db
      case DbFailure(m) => ResolveOutcome(JsonError(StatusBadRequest, m), looked, None, None)
      case NoDocuments => ResolveOutcome(NotFoundRedirect(env), looked, None, None)
      case Found(u) =>
        if Live(u, now) then
          Redirected(req, env, u, looked, Some(CacheWrite(req.short, u, u.expiry - now)), captureTime)
        else ResolveOutcome(NotFoundRedirect(env), looked, None, None)
  }

  /** `ResolveURL`. `underMaintenance` is `helpers.SystemUnderMaintenance`,
      applied to the revalidate flag; `db` is what `models.GetURL` would
      return for the short; `now` is the clock at the expiry checks and
      `captureTime` the clock inside the capture goroutine. */
  function ResolveUrl(req: ResolveRequest, env: Environment, underMaintenance: bool -> bool,
                      rateConfig: map<string, RateLimit>, limiter: Limiter,
                      cache: map<string, Url>, db: DbLookup, now: int, captureTime: int): (o: ResolveOutcome)
    // Maintenance short-circuits everything: a 301 to the maintenance page,
    // no limiter, cache or database step.
    ensures underMaintenance(Revalidate(req.revalidateParam)) ==>
      o == ResolveOutcome(Redirect(StatusMovedPermanently, env.maintenanceUrl), [], None, None)
    // Otherwise the limiter runs first, under the resolve policy.
    ensures !underMaintenance(Revalidate(req.revalidateParam)) ==>
      |o.steps| >= 1 && o.steps[0] == RateCheck("", Some(ResolvePolicy(rateConfig)))
    // A refusal answers 429 before any cache or database step.
    ensures !underMaintenance(Revalidate(req.revalidateParam)) &&
            limiter("", Some(ResolvePolicy(rateConfig))).Exhausted? ==>
      o.response == JsonError(StatusTooManyRequests,
                              QuotaMessage("Resolve URL", limiter("", Some(ResolvePolicy(rateConfig))).remaining)) &&
      o.steps == [RateCheck("", Some(ResolvePolicy(rateConfig)))] && o.cacheWrite == None && o.capture == None
    // Once admitted, everything else is the lookup's decision, after the
    // limiter step.
    ensures !underMaintenance(Revalidate(req.revalidateParam)) &&
            limiter("", Some(ResolvePolicy(rateConfig))).Allowed? ==>
      var l := Lookup(req, env, Revalidate(req.revalidateParam), cache, db, now, captureTime);
      o.steps == [RateCheck("", Some(ResolvePolicy(rateConfig)))] + l.steps &&
      o.response == l.response && o.cacheWrite == l.cacheWrite && o.capture == l.capture
    // Only an admitted request the cache cannot serve reads the database.
    ensures DbFindByShort(req.short) in o.steps <==>
      !underMaintenance(Revalidate(req.revalidateParam)) && limiter("", Some(ResolvePolicy(rateConfig))).Allowed? &&
      !CacheServes(cache, req.short, Revalidate(req.revalidateParam))
    // A click is captured exactly with a 301 to a destination (never the
    // maintenance redirect) outside production.
    ensures o.capture.Some? <==>
      (o.response.Redirect? && o.response.status == StatusMovedPermanently &&
       !underMaintenance(Revalidate(req.revalidateParam)) && env.env != Production)
  {
    var revalidate := Revalidate(req.revalidateParam);
    if underMaintenance(revalidate) then
      ResolveOutcome(Redirect(StatusMovedPermanently, env.maintenanceUrl), [], None, None)
    else
      var checked := [RateCheck("", Some(ResolvePolicy(rateConfig)))];
      match limiter("", Some(ResolvePolicy(rateConfig)))
      case Exhausted(remaining) =>
        ResolveOutcome(JsonError(StatusTooManyRequests, QuotaMessage("Resolve URL", remaining)), checked, None, None)
      case Allowed =>
        var l := Lookup(req, env, revalidate, cache, db, now, captureTime);
        l.(steps := checked + l.steps)
  }

  /** The cache after a resolve's write, if it made one. */
  function ApplyCacheWrite(cache: map<string, Url>, w: Option<CacheWrite>): map<string, Url> {
    if w.Some? then Set(cache, w.value.key, w.value.url) else cache
  }

  /** Cache-aside pays off: once a resolve has read a live record from the
      database and cached it, a later resolve of the same short that is
      still within the record's lifetime (and while the entry is still in
      Redis) redirects to the same destination without reading the
      database, whatever the database would now say. */
  lemma RepeatWithinTtlSkipsDb(req: ResolveRequest, req2: ResolveRequest, env: Environment,
                               underMaintenance: bool -> bool, rateConfig: map<string, RateLimit>,
                               limiter: Limiter, cache: map<string, Url>, db: DbLookup, db2: DbLookup,
                               now: int, now2: int, captureTime: int, captureTime2: int)
    requires db.Found? && db.url.id != NilObjectId
    requires var o := ResolveUrl(req, env, underMaintenance, rateConfig, limiter, cache, db, now, captureTime);
             o.cacheWrite.Some?
    requires req2.short == req.short && !Revalidate(req2.revalidateParam)
    requires !underMaintenance(false) && limiter("", Some(ResolvePolicy(rateConfig))).Allowed?
    requires now <= now2 <= db.url.expiry
    ensures var o := ResolveUrl(req, env, underMaintenance, rateConfig, limiter, cache, db, now, captureTime);
            var o2 := ResolveUrl(req2, env, underMaintenance, rateConfig, limiter,
                                 ApplyCacheWrite(cache, o.cacheWrite), db2, now2, captureTime2);
            DbFindByShort(req.short) !in o2.steps && o2.response == o.response && o2.cacheWrite == None
  {
  }

  /** Soft expiry: once the clock has passed a record's expiry, the request
      ends in the not-found redirect whether the record comes from the cache
      or from the database. */
  lemma ExpiredIsNotFound(req: ResolveRequest, env: Environment, underMaintenance: bool -> bool,
                          rateConfig: map<string, RateLimit>, limiter: Limiter,
                          cache: map<string, Url>, u: Url, now: int, captureTime: int)
    requires !underMaintenance(Revalidate(req.revalidateParam))
    requires limiter("", Some(ResolvePolicy(rateConfig))).Allowed?
    requires u.expiry < now
    requires req.short in cache ==> cache[req.short] == u
    ensures ResolveUrl(req, env, underMaintenance, rateConfig, limiter, cache, Found(u), now, captureTime).response
            == NotFoundRedirect(env)
  {
  }

  // ---------------------------------------------------------------------
  // ShortenURL
  // ---------------------------------------------------------------------

  datatype ShortenRequest = ShortenRequest(destination: string, customShort: string, expiry: int)

  datatype ShortenOutcome = ShortenOutcome(response: Response, steps: seq<Step>)

  /** Shorts the service keeps for its own routes. */
  const ReservedShorts: seq<string> := ["url", "user", "system", "shorte.live"]

  /** `helpers.ContainsString`, taken to be a membership test on a slice:
      its body is not part of this model, so the membership reading is an
      assumption drawn from its name and its use on the reserved shorts. */
  function ContainsString(list: seq<string>, s: string): (b: bool)
    ensures b <==> s in list
  {
    if list == [] then false else list[0] == s || ContainsString(list[1..], s)
  }

  /** The custom-short rule: an empty short is always fine (one is
      generated); otherwise it must be neither reserved nor rejected by
      `NotValidShortString`. */
  predicate ShortAcceptable(short: string, notValidShort: string -> bool) {
    short == "" || (short !in ReservedShorts && !notValidShort(short))
  }

  /** Seconds in the 48 hours a link lives when no usable expiry is given. */
  const DefaultLifetime: int := 48 * 60 * 60

  /** `ShortenURL`: decode, rate limit under the user's id, validate the
      destination and the custom short, force https, default the expiry,
      then create. `lowest` is `helpers.LowestUnixTime()`; `create` is
      `models.CreateURL` for the given short, destination and expiry. */
  function ShortenUrl(body: Result<ShortenRequest, string>, userId: ObjectId, limiter: Limiter,
                      isUrl: string -> bool, domainOk: string -> bool, notValidShort: string -> bool,
                      enforceHttp: string -> string, lowest: int, now: int,
                      create: (string, string, int) -> Result<Url, string>): (o: ShortenOutcome)
    // A record is created exactly when every check passed, with the
    // https-forced destination and the defaulted expiry.
    ensures (exists s, d, e :: DbCreate(s, d, e) in o.steps) <==>
      body.Ok? && limiter(userId, None).Allowed? && isUrl(body.value.destination) &&
      domainOk(body.value.destination) && ShortAcceptable(body.value.customShort, notValidShort)
    ensures forall s, d, e :: DbCreate(s, d, e) in o.steps ==>
      s == body.value.customShort && d == enforceHttp(body.value.destination) &&
      e == (if body.value.expiry < lowest then now + DefaultLifetime else body.value.expiry)
    // A reserved or invalid non-empty short is refused with a 400.
    ensures body.Ok? && limiter(userId, None).Allowed? && isUrl(body.value.destination) &&
            domainOk(body.value.destination) && !ShortAcceptable(body.value.customShort, notValidShort) ==>
      o.response == JsonError(StatusBadRequest, "can't use this short") && o.steps == [RateCheck(userId, None)]
    // A decoded body is rate limited before anything else.
    ensures body.Ok? ==> |o.steps| >= 1 && o.steps[0] == RateCheck(userId, None)
    ensures body.Ok? && limiter(userId, None).Exhausted? ==>
      o.response == JsonError(StatusTooManyRequests, QuotaMessage("Shorten URL", limiter(userId, None).remaining)) &&
      o.steps == [RateCheck(userId, None)]
    // A body that does not decode is refused before the rate limiter.
    ensures body.Err? ==> o.response == JsonError(StatusBadRequest, body.error) && o.steps == []
    // An admitted body whose destination is not a usable URL is refused.
    ensures body.Ok? && limiter(userId, None).Allowed? &&
            !(isUrl(body.value.destination) && domainOk(body.value.destination)) ==>
      o.response == JsonError(StatusBadRequest, "invalid url") && o.steps == [RateCheck(userId, None)]
    // Once every check passed, the store decides: 201 with the created
    // record, or 400 with the store's error.
    ensures body.Ok? && limiter(userId, None).Allowed? && isUrl(body.value.destination) &&
            domainOk(body.value.destination) && ShortAcceptable(body.value.customShort, notValidShort) ==>
      var d := enforceHttp(body.value.destination);
      var e := if body.value.expiry < lowest then now + DefaultLifetime else body.value.expiry;
      var c := create(body.value.customShort, d, e);
      && o.steps == [RateCheck(userId, None), DbCreate(body.value.customShort, d, e)]
      && (c.Ok? ==> o.response == Created(ShortenUrlResponse(c.value.destination, c.value.short, c.value.expiry)))
      && (c.Err? ==> o.response == JsonError(StatusBadRequest, c.error))
    // A 201 always carries what the store recorded.
    ensures o.response.Created? ==>
      exists s, d, e :: (DbCreate(s, d, e) in o.steps && create(s, d, e).Ok? &&
                         o.response.body == ShortenUrlResponse(create(s, d, e).value.destination,
                                                               create(s, d, e).value.short,
                                                               create(s, d, e).value.expiry))
  {
    match body
    case Err(m) => ShortenOutcome(JsonError(StatusBadRequest, m), [])
    case Ok(b) =>
      var checked := [RateCheck(userId, None)];
      match limiter(userId, None)
      case Exhausted(remaining) =>
        ShortenOutcome(JsonError(StatusTooManyRequests, QuotaMessage("Shorten URL", remaining)), checked)
      case Allowed =>
        if !isUrl(b.destination) || !domainOk(b.destination) then
          ShortenOutcome(JsonError(StatusBadRequest, "invalid url"), checked)
        else if b.customShort != "" && (ContainsString(ReservedShorts, b.customShort) || notValidShort(b.customShort)) then
          ShortenOutcome(JsonError(StatusBadRequest, "can't use this short"), checked)
        else
          var destination := enforceHttp(b.destination);
          var expiry := if b.expiry < lowest then now + DefaultLifetime else b.expiry;
          var steps := checked + [DbCreate(b.customShort, destination, expiry)];
          match create(b.customShort, destination, expiry)
          case Err(m) => ShortenOutcome(JsonError(StatusBadRequest, m), steps)
          case Ok(u) => ShortenOutcome(Created(ShortenUrlResponse(u.destination, u.short, u.expiry)), steps)
  }

  // ---------------------------------------------------------------------
  // UpdateUrl and DeleteUrl
  // ---------------------------------------------------------------------

  datatype UpdateRequest = UpdateRequest(customShort: string, expiry: int, destination: string)

  /** A management request's response, store steps and the cache key it
      deletes afterwards, if any. */
  datatype MutationOutcome = MutationOutcome(response: Response, steps: seq<Step>, cacheDelete: Option<string>)

  /** The update sent to the store: empty fields and an expiry below
      `lowest` fall back to the stored record's values. */
  function MergeUpdate(req: UpdateRequest, stored: Url, userId: ObjectId, urlId: string, lowest: int): (u: UrlUpdate)
    ensures u.user == userId && u.id == urlId
    ensures u.short == (if req.customShort == "" then stored.short else req.customShort)
    ensures u.destination == (if req.destination == "" then stored.destination else req.destination)
    ensures u.expiry == (if req.expiry < lowest then stored.expiry else req.expiry)
    ensures u.short != "" || stored.short == ""
  {
    UrlUpdate(userId, urlId,
              if req.customShort == "" then stored.short else req.customShort,
              if req.destination == "" then stored.destination else req.destination,
              if req.expiry < lowest then stored.expiry else req.expiry)
  }

  /** `UpdateUrl`: `stored` is `models.GetURL` by id, `update` is
      `models.UpdateUserURL` (an error message or none). After a
      successful update the cache entry of the record's old short is
      deleted, and no other. */
  function UpdateUrl(body: Result<UpdateRequest, string>, userId: ObjectId, urlId: string,
                     stored: Result<Url, string>, lowest: int, update: UrlUpdate -> Option<string>): (o: MutationOutcome)
    ensures o.cacheDelete.Some? <==>
      (body.Ok? && stored.Ok? && update(MergeUpdate(body.value, stored.value, userId, urlId, lowest)).None?)
    ensures o.cacheDelete.Some? ==> o.cacheDelete.value == stored.value.short && o.response == NoContent
    ensures o.response == NoContent ==> o.cacheDelete.Some?
    ensures body.Ok? && stored.Ok? ==>
      o.steps == [DbFindById(urlId), DbUpdate(MergeUpdate(body.value, stored.value, userId, urlId, lowest))]
    ensures body.Ok? && stored.Err? ==>
      o.response == JsonError(StatusBadRequest, stored.error) && o.steps == [DbFindById(urlId)]
    ensures body.Err? ==> o == MutationOutcome(JsonError(StatusBadRequest, body.error), [], None)
    ensures body.Ok? && stored.Ok? && update(MergeUpdate(body.value, stored.value, userId, urlId, lowest)).Some? ==>
      o.response == JsonError(StatusBadRequest, update(MergeUpdate(body.value, stored.value, userId, urlId, lowest)).value)
  {
    match body
    case Err(m) => MutationOutcome(JsonError(StatusBadRequest, m), [], None)
    case Ok(req) =>
      match stored
      case Err(m) => MutationOutcome(JsonError(StatusBadRequest, m), [DbFindById(urlId)], None)
      case Ok(url) =>
        var upd := MergeUpdate(req, url, userId, urlId, lowest);
        var steps := [DbFindById(urlId), DbUpdate(upd)];
        match update(upd)
        case Some(m) => MutationOutcome(JsonError(StatusBadRequest, m), steps, None)
        case None => MutationOutcome(NoContent, steps, Some(url.short))
  }

  /** `DeleteUrl`: look the record up by id, delete it for this user, then
      delete the cache entry of its short. */
  function DeleteUrl(userId: ObjectId, urlId: string, stored: Result<Url, string>,
                     delete: Option<string>): (o: MutationOutcome)
    ensures o.cacheDelete.Some? <==> stored.Ok? && delete.None?
    ensures o.cacheDelete.Some? ==> o.cacheDelete.value == stored.value.short && o.response == NoContent
    ensures stored.Ok? ==> o.steps == [DbFindById(urlId), DbDelete(userId, urlId)]
    ensures stored.Err? ==> o.response == JsonError(StatusBadRequest, stored.error) && o.steps == [DbFindById(urlId)]
    ensures stored.Ok? && delete.Some? ==> o.response == JsonError(StatusBadRequest, delete.value)
    ensures o.response == NoContent ==> o.cacheDelete.Some?
  {
    match stored
    case Err(m) => MutationOutcome(JsonError(StatusBadRequest, m), [DbFindById(urlId)], None)
    case Ok(url) =>
      var steps := [DbFindById(urlId), DbDelete(userId, urlId)];
      match delete
      case Some(m) => MutationOutcome(JsonError(StatusBadRequest, m), steps, None)
      case None => MutationOutcome(NoContent, steps, Some(url.short))
  }

  function ApplyCacheDelete(cache: map<string, Url>, d: Option<string>): map<string, Url> {
    if d.Some? then Del(cache, d.value) else cache
  }

  /** After a successful update the old short can no longer be answered
      from a stale cache entry: the next resolve of it reads the database.
      Cache entries of every other short, the new one included, are kept. */
  lemma UpdateInvalidatesOldShort(body: Result<UpdateRequest, string>, userId: ObjectId, urlId: string,
                                  stored: Result<Url, string>, lowest: int, update: UrlUpdate -> Option<string>,
                                  cache: map<string, Url>, req: ResolveRequest, env: Environment,
                                  underMaintenance: bool -> bool, rateConfig: map<string, RateLimit>,
                                  limiter: Limiter, db: DbLookup, now: int, captureTime: int)
    requires UpdateUrl(body, userId, urlId, stored, lowest, update).response == NoContent
    requires req.short == stored.value.short
    requires !underMaintenance(Revalidate(req.revalidateParam)) && limiter("", Some(ResolvePolicy(rateConfig))).Allowed?
    ensures var cache' := ApplyCacheDelete(cache, UpdateUrl(body, userId, urlId, stored, lowest, update).cacheDelete);
            && DbFindByShort(req.short) in ResolveUrl(req, env, underMaintenance, rateConfig, limiter, cache', db, now, captureTime).steps
            && forall k :: k in cache && k != stored.value.short ==> k in cache' && cache'[k] == cache[k]
  {
  }

  /** After a successful delete the record's short is no longer answered
      from the cache: the next resolve of it reads the database, and once
      the store finds no record for the short the answer is the not-found
      redirect. Every other cache entry is kept. */
  lemma DeleteInvalidatesShort(userId: ObjectId, urlId: string, stored: Result<Url, string>, delete: Option<string>,
                               cache: map<string, Url>, req: ResolveRequest, env: Environment,
                               underMaintenance: bool -> bool, rateConfig: map<string, RateLimit>,
                               limiter: Limiter, now: int, captureTime: int)
    requires DeleteUrl(userId, urlId, stored, delete).response == NoContent
    requires req.short == stored.value.short
    requires !underMaintenance(Revalidate(req.revalidateParam)) && limiter("", Some(ResolvePolicy(rateConfig))).Allowed?
    ensures var cache' := ApplyCacheDelete(cache, DeleteUrl(userId, urlId, stored, delete).cacheDelete);
            var o := ResolveUrl(req, env, underMaintenance, rateConfig, limiter, cache', NoDocuments, now, captureTime);
            && DbFindByShort(req.short) in o.steps
            && o.response == NotFoundRedirect(env)
            && forall k :: k in cache && k != stored.value.short ==> k in cache' && cache'[k] == cache[k]
  {
  }

  // ---------------------------------------------------------------------
  // GetURLStats
  // ---------------------------------------------------------------------

  /** 2024-01-01T00:00:00Z, the earliest start a caller may ask for. */
  const EarliestStart: int := 1704067200

  /** Seconds in the default 24-hour window. */
  const DefaultWindow: int := 24 * 60 * 60

  /** The statistics window from the `start` and `end` query parameters
      (parsed with errors ignored), or the 400 message that refuses it.
      There is no check that start precedes end. */
  function StatsWindow(startParam: string, endParam: string, now: int): (r: Result<(int, int), string>)
    ensures startParam == "" && endParam == "" ==> r == Ok((now - DefaultWindow, now))
    ensures startParam != "" && !(EarliestStart <= ParseInt64(startParam) <= now) ==> r == Err("invalid start time")
    ensures (startParam == "" || EarliestStart <= ParseInt64(startParam) <= now) ==>
      if endParam != "" && ParseInt64(endParam) > now then r == Err("invalid end time")
      else r.Ok? &&
           r.value.0 == (if startParam == "" then now - DefaultWindow else ParseInt64(startParam)) &&
           r.value.1 == (if endParam == "" then now else ParseInt64(endParam))
    ensures r.Ok? ==> EarliestStart <= r.value.0 || startParam == ""
    ensures r.Ok? ==> r.value.1 <= now
  {
    var start := if startParam == "" then now - DefaultWindow else ParseInt64(startParam);
    if startParam != "" && (start < EarliestStart || start > now) then Err("invalid start time")
    else
      var end := if endParam == "" then now else ParseInt64(endParam);
      if endParam != "" && end > now then Err("invalid end time")
      else Ok((start, end))
  }

  datatype StatsOutcome = StatsOutcome(response: Response, steps: seq<Step>)

  /** `GetURLStats`: validate the window, look the record up by id, refuse
      callers other than its owner, then query the analytical store. */
  function GetUrlStats(startParam: string, endParam: string, now: int, urlId: string, callerId: ObjectId,
                       stored: Result<Url, string>, table: seq<ClickRow>, queryError: Option<string>): (o: StatsOutcome)
    ensures StatsWindow(startParam, endParam, now).Err? ==>
      o == StatsOutcome(JsonError(StatusBadRequest, StatsWindow(startParam, endParam, now).error), [])
    ensures StatsWindow(startParam, endParam, now).Ok? && stored.Ok? && stored.value.user != callerId ==>
      o.response == JsonError(StatusUnauthorized, "unauthorized") && o.steps == [DbFindById(urlId)]
    ensures o.response.StatsOk? ==>
      stored.Ok? && stored.value.user == callerId && StatsWindow(startParam, endParam, now).Ok? &&
      var (start, end) := StatsWindow(startParam, endParam, now).value;
      o.steps == [DbFindById(urlId), StatsQuery(urlId, start, end)] &&
      o.response.stats == Aggregate(Select(table, urlId, start, end))
    ensures (StatsWindow(startParam, endParam, now).Ok? && stored.Ok? && stored.value.user == callerId &&
             queryError.None?) ==> o.response.StatsOk?
    // A failed lookup or a failed query answers 400 with its error.
    ensures StatsWindow(startParam, endParam, now).Ok? && stored.Err? ==>
      o == StatsOutcome(JsonError(StatusBadRequest, stored.error), [DbFindById(urlId)])
    ensures (StatsWindow(startParam, endParam, now).Ok? && stored.Ok? && stored.value.user == callerId &&
             queryError.Some?) ==>
      var (start, end) := StatsWindow(startParam, endParam, now).value;
      o.response == JsonError(StatusBadRequest, queryError.value) &&
      o.steps == [DbFindById(urlId), StatsQuery(urlId, start, end)]
  {
    match StatsWindow(startParam, endParam, now)
    case Err(m) => StatsOutcome(JsonError(StatusBadRequest, m), [])
    case Ok((start, end)) =>
      match stored
      case Err(m) => StatsOutcome(JsonError(StatusBadRequest, m), [DbFindById(urlId)])
      case Ok(url) =>
        if url.user != callerId then StatsOutcome(JsonError(StatusUnauthorized, "unauthorized"), [DbFindById(urlId)])
        else
          var steps := [DbFindById(urlId), StatsQuery(urlId, start, end)];
          match QueryClickEvents(table, urlId, start, end, queryError)
          case Err(m) => StatsOutcome(JsonError(StatusBadRequest, m), steps)
          case Ok(stats) => StatsOutcome(StatsOk(stats), steps)
  }

  /** An `end` whose digits are followed by a non-digit (and do not
      overflow first) reads as 0 and passes the `end <= now` check, so the
      request succeeds with the window ending at the epoch; such a `start`
      reads as 0 and is refused. */
  lemma UnparsableBounds(s: string, k: nat, now: int)
    requires 0 < k < |s| && !IsDigit(s[k])
    requires AllDigits(s[..k]) && DigitsValue(s[..k]) <= MaxUint64
    requires now >= 0
    ensures StatsWindow("", s, now) == Ok((now - DefaultWindow, 0))
    ensures StatsWindow(s, "", now) == Err("invalid start time")
  {
    ParseInt64NonDigit(s, k);
  }

  /** An `end` whose digits overflow int64 does not read as 0: it clamps
      to the bound on its sign's side, so a positive overflow is refused
      and a negative one, past the int64 minimum, passes the window check
      as that minimum. */
  lemma OverflowingEnd(b: string, now: int)
    requires b != [] && AllDigits(b) && DigitsValue(b) > MaxInt64
    requires EarliestStart <= now < MaxInt64
    ensures StatsWindow("", b, now) == Err("invalid end time")
    ensures DigitsValue(b) > -MinInt64 ==> StatsWindow("", "-" + b, now) == Ok((now - DefaultWindow, MinInt64))
  {
    ParseInt64Digits(b);
  }

  /** A window whose start lies after its end is accepted, and every
      dimension comes back empty because no row can lie in it. */
  lemma InvertedWindowIsEmpty(table: seq<ClickRow>, urlId: string, start: int, end: int)
    requires end < start
    ensures Aggregate(Select(table, urlId, start, end)) ==
            map["device_counts" := map[], "os_counts" := map[], "geo_counts" := map[], "referrer_counts" := map[]]
  {
    var sel := Select(table, urlId, start, end);
    assert sel == [];
    assert Column(sel, Device) == [] && Column(sel, Os) == [] && Column(sel, Geo) == [] && Column(sel, Referrer) == [];
  }
}

=== FILE: redis.dfy ===
/** The part of Redis the core relies on: list commands with Redis's
    index conventions, and the key space as a map from key to stored value. */
module RedisModel {

  /** Redis reads a negative index as counting back from the end. */
  function NormIndex(i: int, len: nat): int {
    if i < 0 then len + i else i
  }

  /** First index an `LRANGE`/`LTRIM` range covers, clipped to the list. */
  function RangeStart(start: int, len: nat): (k: nat)
    ensures k <= len
  {
    var s := NormIndex(start, len);
    if s < 0 then 0 else if s > len then len else s
  }

  /** One past the last index a range covers; `stop` is inclusive. */
  function RangeEnd(start: int, stop: int, len: nat): (k: nat)
    ensures RangeStart(start, len) <= k <= len
  {
    var e := NormIndex(stop, len) + 1;
    if e < RangeStart(start, len) then RangeStart(start, len)
    else if e > len then len
    else e
  }

  /** `LRANGE key start stop`: the elements from `start` to `stop`, both
      inclusive; an out-of-range `stop` means the last element and an empty
      or inverted range gives the empty list. */
  function LRange<T>(l: seq<T>, start: int, stop: int): (r: seq<T>)
    ensures |r| == RangeEnd(start, stop, |l|) - RangeStart(start, |l|) <= |l|
    ensures forall k :: 0 <= k < |r| ==> r[k] == l[RangeStart(start, |l|) + k]
  {
    l[RangeStart(start, |l|)..RangeEnd(start, stop, |l|)]
  }

  /** `LTRIM key start stop`: the list keeps exactly the elements `LRANGE`
      with the same arguments would return (an empty range deletes it). */
  function LTrim<T>(l: seq<T>, start: int, stop: int): (r: seq<T>)
    ensures r == LRange(l, start, stop)
  {
    l[RangeStart(start, |l|)..RangeEnd(start, stop, |l|)]
  }

  /** `LPUSH key x`: `x` becomes the new head. */
  function LPush<T>(l: seq<T>, x: T): (r: seq<T>)
    ensures |r| == |l| + 1 && r[0] == x && r[1..] == l
  {
    [x] + l
  }

  function Min(a: int, b: int): int {
    if a <= b then a else b
  }

  /** A head range read from index 0 through `stop >= 0` inclusive is the
      first `min(stop + 1, |l|)` elements. */
  lemma LRangeHead<T>(l: seq<T>, stop: int)
    requires stop >= 0
    ensures LRange(l, 0, stop) == l[..Min(stop + 1, |l|)]
  {
  }

  /** Trimming to `start >= 0 .. -1` drops the first `min(start, |l|)`
      elements and keeps the rest in order. */
  lemma LTrimTail<T>(l: seq<T>, start: int)
    requires start >= 0
    ensures LTrim(l, start, -1) == l[Min(start, |l|)..]
  {
  }

  /** `GET`/`SET`/`DEL` on the key space. Time-to-live bookkeeping is not
      modelled: the map holds the keys that are live when it is consulted. */
  function Set<V>(store: map<string, V>, key: string, v: V): (r: map<string, V>)
    ensures key in r && r[key] == v
    ensures forall k :: k in store && k != key ==> k in r && r[k] == store[k]
    ensures r.Keys == store.Keys + {key}
  {
    store[key := v]
  }

  function Del<V>(store: map<string, V>, key: string): (r: map<string, V>)
    ensures key !in r
    ensures forall k :: k in store && k != key ==> k in r && r[k] == store[k]
    ensures r.Keys == store.Keys - {key}
  {
    store - {key}
  }
}

=== FILE: schema.dfy ===
/** The persisted record types and the `UnixTime` SQL conversion of
    api/database/schema.go. */
module Schema {
  import opened Wrappers

  /** A MongoDB ObjectID, held as its 24-character hex rendering (`Hex()`). */
  type ObjectId = string

  /** `primitive.NilObjectID.Hex()`: the id of a record that was never stored. */
  const NilObjectId: ObjectId := "000000000000000000000000"

  /** Seconds since the Unix epoch (`database.UnixTime`, an int64). */
  type UnixTime = int

  /** Nanoseconds within one second. */
  type Nanos = n: nat | n < 1_000_000_000

  /** A Go `time.Time` reduced to what the model observes: whole seconds
      since the epoch and the nanoseconds within that second. */
  datatype Time = Time(sec: int, nsec: Nanos)

  /** The values a `database/sql/driver` hands to `Scan` or receives from
      `Value`: int64, float64, bool, []byte, string, time.Time or nil. */
  datatype DriverValue =
    | Int64Value(i: int)
    | Float64Value(f: real)
    | BoolValue(b: bool)
    | BytesValue(bytes: seq<bv8>)
    | StringValue(s: string)
    | TimeValue(t: Time)
    | NullValue

  /** The error `Scan` reports for a value it cannot convert. */
  datatype ScanError = CannotConvert(value: DriverValue)

  /** `UnixTime.Value`: the time `u` seconds after the epoch, never an error. */
  function Value(u: UnixTime): (r: Result<DriverValue, string>)
    ensures r.Ok? && r.value.TimeValue?
    ensures r.value.t.sec == u && r.value.t.nsec == 0
  {
    Ok(TimeValue(Time(u, 0)))
  }

  /** `(*UnixTime).Scan`: the receiver after the call and the error returned.
      A time value sets the receiver to its Unix seconds; anything else is
      refused and the receiver keeps its old value. */
  function Scan(receiver: UnixTime, value: DriverValue): (r: (UnixTime, Option<ScanError>))
    ensures value.TimeValue? ==> r == (value.t.sec, None)
    ensures !value.TimeValue? ==> r == (receiver, Some(CannotConvert(value)))
  {
    match value
    case TimeValue(t) => (t.sec, None)
    case _ => (receiver, Some(CannotConvert(value)))
  }

  /** Writing a `UnixTime` to the database and reading it back restores it,
      whatever the receiver held before. */
  lemma ScanValueRoundTrip(u: UnixTime, receiver: UnixTime)
    ensures Scan(receiver, Value(u).value) == (u, None)
  {
  }

  /** `database.URL`: a short-link record. `UserDoc` is not persisted
      (`bson:"-"`) and is left out. */
  datatype Url = Url(
    user: ObjectId,
    destination: string,
    expiry: UnixTime,
    short: string,
    id: ObjectId,
    updateAt: UnixTime,
    createdAt: UnixTime,
    totalClicks: int)

  /** Soft expiry: a record is usable while the clock has not passed its
      expiry (`!now.After(time.Unix(expiry, 0))`, at second granularity). */
  predicate Live(u: Url, now: UnixTime) {
    now <= u.expiry
  }

  /** `database.ClickEvent`: one recorded redirect. */
  datatype ClickEvent = ClickEvent(
    urlId: string,
    geo: string,
    device: string,
    os: string,
    referrer: string,
    timestamp: UnixTime)

  /** The zero value of `database.ClickEvent`, what `var temp ClickEvent` holds. */
  const ZeroEvent: ClickEvent := ClickEvent("", "", "", "", "", 0)
}

=== FILE: strconv.dfy ===
/** The two conversions of Go's `strconv` package that the controllers use
    on query parameters: `ParseBool` (for `?revalidate=`) and
    `ParseInt(s, 10, 64)` (for `?start=` and `?end=`). Decimal digit strings
    are also the length prefixes of the event encoding (see EventCodec). */
module Strconv {
  import opened Wrappers

  const MaxUint64: nat := 0xFFFF_FFFF_FFFF_FFFF
  const MaxInt64: int := 0x7FFF_FFFF_FFFF_FFFF
  const MinInt64: int := -0x8000_0000_0000_0000

  predicate IsDigit(c: char) {
    '0' <= c <= '9'
  }

  predicate AllDigits(s: string) {
    forall i :: 0 <= i < |s| ==> IsDigit(s[i])
  }

  function DigitValue(c: char): (d: nat)
    requires IsDigit(c)
    ensures d < 10
  {
    c as int - '0' as int
  }

  function DigitChar(d: nat): (c: char)
    requires d < 10
    ensures IsDigit(c) && DigitValue(c) == d
  {
    ('0' as int + d) as char
  }

  /** The number a string of decimal digits denotes (most significant first). */
  function DigitsValue(s: string): nat
    requires AllDigits(s)
  {
    if s == [] then 0 else DigitsValue(s[..|s| - 1]) * 10 + DigitValue(s[|s| - 1])
  }

  /** Shortest decimal rendering of `n`, as Go's `strconv.Itoa` prints it. */
  function NatToDigits(n: nat): (s: string)
    ensures AllDigits(s) && 1 <= |s|
    ensures |s| > 1 ==> s[0] != '0'
  {
    if n < 10 then [DigitChar(n)] else NatToDigits(n / 10) + [DigitChar(n % 10)]
  }

  lemma {:induction false} DigitsRoundTrip(n: nat)
    ensures DigitsValue(NatToDigits(n)) == n
  {
    if n >= 10 {
      var s := NatToDigits(n);
      assert s[..|s| - 1] == NatToDigits(n / 10);
      DigitsRoundTrip(n / 10);
    }
  }

  /** The value the digit loop holds after consuming `s` from `acc`: the
      number written by the digits of `acc` followed by those of `s`. */
  function Horner(acc: nat, s: string): nat
    requires AllDigits(s)
    decreases |s|
  {
    if s == [] then acc else Horner(acc * 10 + DigitValue(s[0]), s[1..])
  }

  /** Appending a digit shifts the accumulated value by one place. */
  lemma {:induction false} HornerSnoc(acc: nat, s: string, c: char)
    requires AllDigits(s) && IsDigit(c)
    ensures AllDigits(s + [c])
    ensures Horner(acc, s + [c]) == Horner(acc, s) * 10 + DigitValue(c)
    decreases |s|
  {
    if s == [] {
      assert [c][1..] == [];
    } else {
      assert (s + [c])[1..] == s[1..] + [c];
      HornerSnoc(acc * 10 + DigitValue(s[0]), s[1..], c);
    }
  }

  /** Reading the digits front to back from zero gives the number they denote. */
  lemma {:induction false} HornerIsValue(s: string)
    requires AllDigits(s)
    ensures Horner(0, s) == DigitsValue(s)
    decreases |s|
  {
    if s != [] {
      var init, c := s[..|s| - 1], s[|s| - 1];
      assert s == init + [c];
      HornerIsValue(init);
      HornerSnoc(0, init, c);
    }
  }

  /** Consuming more digits never makes the value smaller. */
  lemma {:induction false} HornerGrows(acc: nat, s: string)
    requires AllDigits(s)
    ensures Horner(acc, s) >= acc
    decreases |s|
  {
    if s != [] {
      HornerGrows(acc * 10 + DigitValue(s[0]), s[1..]);
    }
  }

  /** Go's `strconv.ParseBool`: only these twelve spellings are accepted;
      anything else is a syntax error. */
  function ParseBool(s: string): (r: Option<bool>)
    ensures r == Some(true) <==> s in TrueSpellings
    ensures r == Some(false) <==> s in FalseSpellings
  {
    if s in TrueSpellings then Some(true)
    else if s in FalseSpellings then Some(false)
    else None
  }

  const TrueSpellings: set<string> := {"1", "t", "T", "TRUE", "true", "True"}
  const FalseSpellings: set<string> := {"0", "f", "F", "FALSE", "false", "False"}

  /** Go's `strconv.FormatBool`, the inverse that `ParseBool` must accept. */
  function FormatBool(b: bool): string {
    if b then "true" else "false"
  }

  lemma ParseBoolFormatBool(b: bool)
    ensures ParseBool(FormatBool(b)) == Some(b)
  {
  }

  /** Outcome of the digit loop of Go's `ParseUint` in base 10, 64 bits. */
  datatype UintScan = Scanned(n: nat) | SyntaxError | RangeError

  /** The digit loop of `ParseUint(s, 10, 64)` continuing from the value
      `acc` accumulated so far. A non-digit stops with a syntax error; an
      accumulator at or above the cutoff, or a step past `MaxUint64`, stops
      with a range error, whichever comes first from the left. */
  function ScanUint(s: string, acc: nat): UintScan
    decreases |s|
  {
    if s == [] then Scanned(acc)
    else if !IsDigit(s[0]) then SyntaxError
    else if acc >= MaxUint64 / 10 + 1 then RangeError
    else if acc * 10 + DigitValue(s[0]) > MaxUint64 then RangeError
    else ScanUint(s[1..], acc * 10 + DigitValue(s[0]))
  }

  /** On a string of digits the loop computes the value of the digits after
      `acc`, or reports a range error exactly when that value exceeds
      `MaxUint64`. */
  lemma {:induction false} ScanUintDigits(s: string, acc: nat)
    requires AllDigits(s) && acc <= MaxUint64
    ensures ScanUint(s, acc) == (if Horner(acc, s) <= MaxUint64 then Scanned(Horner(acc, s)) else RangeError)
    decreases |s|
  {
    if s != [] {
      var acc' := acc * 10 + DigitValue(s[0]);
      HornerGrows(acc', s[1..]);
      if acc < MaxUint64 / 10 + 1 && acc' <= MaxUint64 {
        ScanUintDigits(s[1..], acc');
      }
    }
  }

  /** Go's `strconv.ParseInt(s, 10, 64)` with its error discarded, as the
      controllers call it: a syntax error yields 0, a range error yields the
      int64 bound on the side of the sign. */
  function ParseInt64(s: string): (r: int)
    ensures MinInt64 <= r <= MaxInt64
  {
    if s == [] then 0
    else
      var neg := s[0] == '-';
      var body := if s[0] == '+' || s[0] == '-' then s[1..] else s;
      if body == [] then 0
      else match ScanUint(body, 0)
        case SyntaxError => 0
        case RangeError => if neg then MinInt64 else MaxInt64
        case Scanned(un) =>
          if !neg && un > MaxInt64 then MaxInt64
          else if neg && un > -MinInt64 then MinInt64
          else if neg then -(un as int) else un as int
  }

  /** Go's `strconv.FormatInt(i, 10)`. */
  function FormatInt(i: int): string {
    if i < 0 then "-" + NatToDigits(-i) else NatToDigits(i)
  }

  /** `ParseInt64` inverts `FormatInt` on the whole int64 range. */
  lemma ParseFormatInt(i: int)
    requires MinInt64 <= i <= MaxInt64
    ensures ParseInt64(FormatInt(i)) == i
  {
    var s := FormatInt(i);
    var m: nat := if i < 0 then -i else i;
    var digits := NatToDigits(m);
    DigitsRoundTrip(m);
    HornerIsValue(digits);
    ScanUintDigits(digits, 0);
    if i < 0 {
      assert s[1..] == digits;
    } else {
      assert s == digits;
    }
  }

  /** On an optionally signed run of digits, `ParseInt64` yields the value
      the run denotes, clamped to `MaxInt64` above and `MinInt64` below. */
  lemma ParseInt64Digits(b: string)
    requires b != [] && AllDigits(b)
    ensures ParseInt64(b) == (if DigitsValue(b) > MaxInt64 then MaxInt64 else DigitsValue(b))
    ensures ParseInt64("+" + b) == ParseInt64(b)
    ensures ParseInt64("-" + b) == (if DigitsValue(b) > -MinInt64 then MinInt64 else -(DigitsValue(b) as int))
  {
    HornerIsValue(b);
    ScanUintDigits(b, 0);
    assert ("+" + b)[1..] == b && ("-" + b)[1..] == b;
  }

  /** A parameter that is not a run of digits reads as 0, unless the digits
      before the first offending character already overflow. */
  lemma ParseInt64NonDigit(s: string, k: nat)
    requires 0 < k < |s| && !IsDigit(s[k])
    requires AllDigits(s[..k])
    requires DigitsValue(s[..k]) <= MaxUint64
    ensures ParseInt64(s) == 0
  {
    assert IsDigit(s[..k][0]);
    HornerIsValue(s[..k]);
    ScanPrefixThenNonDigit(s, k, 0);
  }

  lemma {:induction false} ScanPrefixThenNonDigit(s: string, k: nat, acc: nat)
    requires k < |s| && !IsDigit(s[k])
    requires AllDigits(s[..k])
    requires Horner(acc, s[..k]) <= MaxUint64
    ensures ScanUint(s, acc) == SyntaxError
    decreases k
  {
    if k > 0 {
      var p := s[..k];
      var acc' := acc * 10 + DigitValue(s[0]);
      assert p[0] == s[0] && p[1..] == s[1..][..k - 1];
      HornerGrows(acc', p[1..]);
      ScanPrefixThenNonDigit(s[1..], k - 1, acc');
    }
  }
}

=== FILE: timescale.dfy ===
/** The analytical store of api/timescale/main.go: the `click_events`
    hypertable as a sequence of rows, the bulk insert that fills it, and
    the per-link statistics query that reads it. */
module Timescale {
  import opened Wrappers
  import opened Schema

  /** A stored row: the six columns of `click_events`; `timestamp` is a
      TIMESTAMPTZ, i.e. a time rather than a number. */
  datatype ClickRow = ClickRow(
    urlId: string,
    geo: string,
    device: string,
    os: string,
    referrer: string,
    timestamp: Time)

  const InsertClickEventsSql: string :=
    "INSERT INTO click_events (url_id, geo, device, os, referrer, timestamp) VALUES ($1, $2, $3, $4, $5, $6);"

  /** One queued statement: the SQL text and its six arguments. The
      timestamp argument is what `UnixTime.Value` hands to the driver. */
  datatype Statement = Statement(
    sql: string,
    urlId: string,
    geo: string,
    device: string,
    os: string,
    referrer: string,
    timestamp: DriverValue)

  /** A stored row read back into a `ClickEvent`, its time column going
      through `UnixTime.Scan`. */
  function ReadBack(row: ClickRow): ClickEvent {
    ClickEvent(row.urlId, row.geo, row.device, row.os, row.referrer, Scan(0, TimeValue(row.timestamp)).0)
  }

  function Statement1(e: ClickEvent): Statement {
    Statement(InsertClickEventsSql, e.urlId, e.geo, e.device, e.os, e.referrer, Value(e.timestamp).value)
  }

  /** The loop that fills the `pgx.Batch`: one six-column insert per event,
      in input order, whose arguments carry exactly that event. */
  function QueueInserts(events: seq<ClickEvent>): (batch: seq<Statement>)
    ensures |batch| == |events|
    ensures forall i :: 0 <= i < |batch| ==>
      batch[i].sql == InsertClickEventsSql && batch[i].timestamp == TimeValue(Time(events[i].timestamp, 0)) &&
      ReadBack(RowOf(batch[i])) == events[i]
  {
    if events == [] then []
    else
      ScanValueRoundTrip(events[0].timestamp, 0);
      [Statement1(events[0])] + QueueInserts(events[1..])
  }

  /** The row the database stores for an executed insert. A timestamp
      argument that is not a time cannot be encoded into TIMESTAMPTZ; the
      batch built by `QueueInserts` never has one. */
  function RowOf(st: Statement): ClickRow
  {
    ClickRow(st.urlId, st.geo, st.device, st.os, st.referrer,
             if st.timestamp.TimeValue? then st.timestamp.t else Time(0, 0))
  }

  function RowsOf(batch: seq<Statement>): (rows: seq<ClickRow>)
    ensures |rows| == |batch|
    ensures forall i :: 0 <= i < |batch| ==> rows[i] == RowOf(batch[i])
  {
    if batch == [] then [] else [RowOf(batch[0])] + RowsOf(batch[1..])
  }

  /** How the connection behaves for one bulk insert. */
  datatype Connection = ConnectFails(connectError: string) | ExecFails(execError: string) | Executes

  /** `InsertClickEventsBulk`: the table after the batch, or the error it
      returns. On success the table gains one row per event, in order, and
      each new row reads back as its event. */
  function InsertClickEventsBulk(table: seq<ClickRow>, events: seq<ClickEvent>, conn: Connection)
    : (r: Result<seq<ClickRow>, string>)
    ensures r.Ok? <==> conn.Executes?
    ensures conn.ConnectFails? ==> r == Err(conn.connectError)
    ensures conn.ExecFails? ==> r == Err(conn.execError)
    ensures r.Ok? ==> |r.value| == |table| + |events| && r.value[..|table|] == table
    ensures r.Ok? ==> forall i :: 0 <= i < |events| ==> ReadBack(r.value[|table| + i]) == events[i]
    ensures r.Ok? ==> forall i :: 0 <= i < |events| ==>
      r.value[|table| + i].urlId == events[i].urlId && r.value[|table| + i].timestamp == Time(events[i].timestamp, 0)
  {
    match conn
    case ConnectFails(e) => Err(e)
    case ExecFails(e) => Err(e)
    case Executes =>
      var batch := QueueInserts(events);
      Ok(table + RowsOf(batch))
  }

  /** Time order of TIMESTAMPTZ values. */
  predicate TimeLeq(a: Time, b: Time) {
    a.sec < b.sec || (a.sec == b.sec && a.nsec <= b.nsec)
  }

  /** The WHERE clause of the statistics query: the link id matches and
      `to_timestamp(start) <= timestamp <= to_timestamp(end)`. */
  predicate InWindow(row: ClickRow, urlId: string, start: int, end: int) {
    row.urlId == urlId && TimeLeq(Time(start, 0), row.timestamp) && TimeLeq(row.timestamp, Time(end, 0))
  }

  /** The rows the query returns, in table order. */
  function Select(table: seq<ClickRow>, urlId: string, start: int, end: int): (sel: seq<ClickRow>)
    ensures forall row :: multiset(sel)[row] == if InWindow(row, urlId, start, end) then multiset(table)[row] else 0
  {
    if table == [] then []
    else
      assert table == [table[0]] + table[1..];
      (if InWindow(table[0], urlId, start, end) then [table[0]] else []) + Select(table[1..], urlId, start, end)
  }

  /** For rows stored with whole-second timestamps (all the bulk insert
      writes) both window bounds are inclusive on the Unix seconds. */
  lemma InWindowSeconds(row: ClickRow, urlId: string, start: int, end: int)
    requires row.timestamp.nsec == 0
    ensures InWindow(row, urlId, start, end) <==>
            row.urlId == urlId && start <= row.timestamp.sec <= end
  {
  }

  /** What the bulk insert writes is what the statistics query sees: after
      a successful insert, each event's row is selected, as often as it
      occurs in the table, by every window of its link that contains the
      event's second. */
  lemma InsertThenSelect(table: seq<ClickRow>, events: seq<ClickEvent>, conn: Connection, i: nat, start: int, end: int)
    requires conn.Executes? && i < |events|
    requires start <= events[i].timestamp <= end
    ensures var t := InsertClickEventsBulk(table, events, conn).value;
            var row := t[|table| + i];
            && row in Select(t, events[i].urlId, start, end)
            && multiset(Select(t, events[i].urlId, start, end))[row] == multiset(t)[row]
  {
    var t := InsertClickEventsBulk(table, events, conn).value;
    var row := t[|table| + i];
    InWindowSeconds(row, events[i].urlId, start, end);
    assert row in multiset(t);
  }

  /** The key every count map carries besides the observed values. */
  const Total: string := "total"

  /** `m[k]++` on a Go map, where a missing key reads as zero. */
  function Bump(m: map<string, int>, k: string): map<string, int> {
    m[k := (if k in m then m[k] else 0) + 1]
  }

  /** One dimension of the counting loop: each value bumps its own entry and
      then `"total"`, in sequence order. */
  function Tally(xs: seq<string>): map<string, int> {
    if xs == [] then map[]
    else Bump(Bump(Tally(xs[..|xs| - 1]), xs[|xs| - 1]), Total)
  }

  /** What the loop computes is a tally: every value seen is a key mapped to
      its number of occurrences, `"total"` is present once anything was seen
      and holds the count plus the occurrences of the literal value
      `"total"`, and nothing else is a key. */
  lemma {:induction false} TallyCounts(xs: seq<string>)
    ensures forall v :: v in Tally(xs) <==> (v in multiset(xs) || (v == Total && |xs| > 0))
    ensures forall v :: v in Tally(xs) && v != Total ==> Tally(xs)[v] == multiset(xs)[v]
    ensures |xs| > 0 ==> Tally(xs)[Total] == |xs| + multiset(xs)[Total]
  {
    if xs != [] {
      var init, x := xs[..|xs| - 1], xs[|xs| - 1];
      assert xs == init + [x];
      TallyCounts(init);
      TallyStep(Tally(init), init, x);
    }
  }

  /** One iteration of the counting loop keeps the tally closed form. */
  lemma TallyStep(m: map<string, int>, init: seq<string>, x: string)
    requires forall v :: v in m <==> (v in multiset(init) || (v == Total && |init| > 0))
    requires forall v :: v in m && v != Total ==> m[v] == multiset(init)[v]
    requires |init| > 0 ==> Total in m && m[Total] == |init| + multiset(init)[Total]
    ensures var m', xs := Bump(Bump(m, x), Total), init + [x];
            && (forall v :: v in m' <==> (v in multiset(xs) || (v == Total && |xs| > 0)))
            && (forall v :: v in m' && v != Total ==> m'[v] == multiset(xs)[v])
            && Total in m' && m'[Total] == |xs| + multiset(xs)[Total]
  {
    var xs := init + [x];
    assert multiset(xs) == multiset(init) + multiset{x};
  }

  datatype Dimension = Device | Os | Geo | Referrer

  function FieldOf(row: ClickRow, d: Dimension): string {
    match d
    case Device => row.device
    case Os => row.os
    case Geo => row.geo
    case Referrer => row.referrer
  }

  /** The values of one dimension over the selected rows, in order. */
  function Column(rows: seq<ClickRow>, d: Dimension): (col: seq<string>)
    ensures |col| == |rows|
    ensures forall i :: 0 <= i < |rows| ==> col[i] == FieldOf(rows[i], d)
  {
    if rows == [] then [] else [FieldOf(rows[0], d)] + Column(rows[1..], d)
  }

  type ClickStats = map<string, map<string, int>>

  const DimensionKeys: set<string> := {"device_counts", "os_counts", "geo_counts", "referrer_counts"}

  /** The four count maps the query returns, one tally per dimension. */
  function Aggregate(rows: seq<ClickRow>): (stats: ClickStats)
    ensures stats.Keys == DimensionKeys
  {
    map key | key in DimensionKeys :: Tally(Column(rows, DimensionOfKey(key)))
  }

  /** The dimension a result key counts. */
  function DimensionOfKey(key: string): Dimension {
    if key == "device_counts" then Device
    else if key == "os_counts" then Os
    else if key == "geo_counts" then Geo
    else Referrer
  }

  lemma KeyDimension(d: Dimension)
    ensures DimensionKey(d) in DimensionKeys && DimensionOfKey(DimensionKey(d)) == d
  {
    match d
    case Device =>
    case Os => assert "os_counts" != "device_counts";
    case Geo => assert "geo_counts" != "device_counts" && "geo_counts" != "os_counts";
    case Referrer =>
      assert "referrer_counts" != "device_counts" && "referrer_counts" != "os_counts" && "referrer_counts" != "geo_counts";
  }

  /** `QueryClickEvents(urlId, start, end)`: the statistics of the rows in
      the window, or the error the query reports. */
  function QueryClickEvents(table: seq<ClickRow>, urlId: string, start: int, end: int, queryError: Option<string>)
    : (r: Result<ClickStats, string>)
    ensures queryError.Some? ==> r == Err(queryError.value)
    ensures queryError.None? ==> r.Ok? && r.value.Keys == DimensionKeys
  {
    match queryError
    case Some(e) => Err(e)
    case None => Ok(Aggregate(Select(table, urlId, start, end)))
  }

  /** For every dimension, a value other than `"total"` maps to the number
      of selected rows carrying it, and `"total"` (present once a row was
      selected) to the number of selected rows plus those whose value is the
      literal `"total"`. */
  lemma QueryCounts(table: seq<ClickRow>, urlId: string, start: int, end: int, d: Dimension, key: string, v: string)
    requires key == DimensionKey(d)
    ensures var stats := QueryClickEvents(table, urlId, start, end, None).value;
            var sel := Select(table, urlId, start, end);
            && (v != Total ==> CountOf(stats[key], v) == multiset(Column(sel, d))[v])
            && (|sel| > 0 ==> Total in stats[key] && stats[key][Total] == |sel| + multiset(Column(sel, d))[Total])
            && (|sel| == 0 ==> stats[key] == map[])
  {
    var sel := Select(table, urlId, start, end);
    AggregateAt(sel, d);
    TallyCounts(Column(sel, d));
  }

  /** The entry of a dimension's key is the tally of that dimension. */
  lemma AggregateAt(rows: seq<ClickRow>, d: Dimension)
    ensures DimensionKey(d) in Aggregate(rows)
    ensures Aggregate(rows)[DimensionKey(d)] == Tally(Column(rows, d))
  {
    KeyDimension(d);
  }

  /** A missing key counts as zero, as Go's map lookup does. */
  function CountOf(m: map<string, int>, v: string): int {
    if v in m then m[v] else 0
  }

  function DimensionKey(d: Dimension): string {
    match d
    case Device => "device_counts"
    case Os => "os_counts"
    case Geo => "geo_counts"
    case Referrer => "referrer_counts"
  }

  /** When no selected row carries the literal value `"total"`, each
      dimension's `"total"` is exactly the number of rows in the window. */
  lemma TotalIsRowCount(rows: seq<ClickRow>, d: Dimension)
    requires |rows| > 0
    requires forall i :: 0 <= i < |rows| ==> FieldOf(rows[i], d) != Total
    ensures Aggregate(rows)[DimensionKey(d)][Total] == |rows|
  {
    var col := Column(rows, d);
    AggregateAt(rows, d);
    assert Total !in col by {
      forall i | 0 <= i < |col| ensures col[i] != Total {
        assert col[i] == FieldOf(rows[i], d);
      }
    }
    TallyTotalWithoutLiteral(col);
  }

  lemma TallyTotalWithoutLiteral(xs: seq<string>)
    requires |xs| > 0 && Total !in xs
    ensures Total in Tally(xs) && Tally(xs)[Total] == |xs|
  {
    TallyCounts(xs);
    assert multiset(xs)[Total] == 0;
  }

  lemma ColumnConcat(a: seq<ClickRow>, b: seq<ClickRow>, d: Dimension)
    ensures Column(a + b, d) == Column(a, d) + Column(b, d)
  {
  }

  /** Reordering rows reorders each column the same way. */
  lemma {:induction false} ColumnPermutation(a: seq<ClickRow>, b: seq<ClickRow>, d: Dimension)
    requires multiset(a) == multiset(b)
    ensures multiset(Column(a, d)) == multiset(Column(b, d))
    decreases |a|
  {
    if a == [] {
      assert |b| == |multiset(b)| == 0;
    } else {
      var i := IndexOf(b, a[0]);
      RemoveAt(a, b, i);
      ColumnPermutation(a[1..], b[..i] + b[i + 1..], d);
      ColumnPermutationStep(a, b, i, d);
    }
  }

  /** The inductive step: matching heads taken out of both sides. */
  lemma ColumnPermutationStep(a: seq<ClickRow>, b: seq<ClickRow>, i: nat, d: Dimension)
    requires a != [] && i < |b| && b[i] == a[0]
    requires multiset(Column(a[1..], d)) == multiset(Column(b[..i] + b[i + 1..], d))
    ensures multiset(Column(a, d)) == multiset(Column(b, d))
  {
    ColumnRemoveAt(b, i, d);
    ColumnHead(a, d);
  }

  lemma ColumnHead(a: seq<ClickRow>, d: Dimension)
    requires a != []
    ensures multiset(Column(a, d)) == multiset(Column(a[1..], d)) + multiset{FieldOf(a[0], d)}
  {
    var x, rest := FieldOf(a[0], d), Column(a[1..], d);
    assert Column(a, d) == [x] + rest;
    assert multiset([x] + rest) == multiset([x]) + multiset(rest);
  }

  /** A position holding an element of the multiset. */
  lemma IndexOf<T>(b: seq<T>, x: T) returns (i: nat)
    requires x in multiset(b)
    ensures i < |b| && b[i] == x
  {
    assert x in b;
    i :| 0 <= i < |b| && b[i] == x;
  }

  /** Taking one position out of a sequence takes its element out of the
      multiset. */
  lemma MultisetRemoveAt<T>(b: seq<T>, i: nat)
    requires i < |b|
    ensures multiset(b) == multiset(b[..i] + b[i + 1..]) + multiset{b[i]}
  {
    assert b == b[..i] + [b[i]] + b[i + 1..];
    calc {
      multiset(b);
      multiset(b[..i]) + multiset([b[i]]) + multiset(b[i + 1..]);
      multiset(b[..i] + b[i + 1..]) + multiset{b[i]};
    }
  }

  /** Removing a matching element from two equal multisets of rows. */
  lemma RemoveAt(a: seq<ClickRow>, b: seq<ClickRow>, i: nat)
    requires multiset(a) == multiset(b) && a != [] && i < |b| && b[i] == a[0]
    ensures multiset(a[1..]) == multiset(b[..i] + b[i + 1..])
  {
    MultisetRemoveAt(b, i);
    MultisetRemoveAt(a, 0);
    assert a[..0] + a[1..] == a[1..];
    Cancel(multiset(a[1..]), multiset(b[..i] + b[i + 1..]), a[0]);
  }

  /** Equal multisets stay equal when one occurrence of the same element is
      taken from both. */
  lemma Cancel<T>(p: multiset<T>, q: multiset<T>, x: T)
    requires p + multiset{x} == q + multiset{x}
    ensures p == q
  {
    assert p == (p + multiset{x}) - multiset{x};
    assert q == (q + multiset{x}) - multiset{x};
  }

  /** The column of a row sequence with one row taken out. */
  lemma ColumnRemoveAt(b: seq<ClickRow>, i: nat, d: Dimension)
    requires i < |b|
    ensures multiset(Column(b, d)) == multiset(Column(b[..i] + b[i + 1..], d)) + multiset{FieldOf(b[i], d)}
  {
    assert b == b[..i] + ([b[i]] + b[i + 1..]);
    ColumnConcat(b[..i], [b[i]] + b[i + 1..], d);
    ColumnConcat([b[i]], b[i + 1..], d);
    ColumnConcat(b[..i], b[i + 1..], d);
  }

  /** A tally depends only on how often each value occurs. */
  lemma TallyPermutation(xs: seq<string>, ys: seq<string>)
    requires multiset(xs) == multiset(ys)
    ensures Tally(xs) == Tally(ys)
  {
    assert |xs| == |multiset(xs)| == |ys|;
    TallyCounts(xs);
    TallyCounts(ys);
    var m1, m2 := Tally(xs), Tally(ys);
    assert m1.Keys == m2.Keys by {
      forall v ensures v in m1 <==> v in m2 {
      }
    }
    forall v | v in m1 ensures m1[v] == m2[v] {
    }
  }

  /** The statistics do not depend on the order in which the database
      returns rows: tables holding the same rows give the same result. */
  lemma QueryOrderIndependent(t1: seq<ClickRow>, t2: seq<ClickRow>, urlId: string, start: int, end: int)
    requires multiset(t1) == multiset(t2)
    ensures QueryClickEvents(t1, urlId, start, end, None) == QueryClickEvents(t2, urlId, start, end, None)
  {
    SelectPermutation(t1, t2, urlId, start, end);
    AggregatePermutation(Select(t1, urlId, start, end), Select(t2, urlId, start, end));
  }

  /** Tables holding the same rows select the same rows. */
  lemma SelectPermutation(t1: seq<ClickRow>, t2: seq<ClickRow>, urlId: string, start: int, end: int)
    requires multiset(t1) == multiset(t2)
    ensures multiset(Select(t1, urlId, start, end)) == multiset(Select(t2, urlId, start, end))
  {
    var s1, s2 := Select(t1, urlId, start, end), Select(t2, urlId, start, end);
    forall row ensures multiset(s1)[row] == multiset(s2)[row] {
    }
  }

  /** Rows in any order aggregate to the same statistics. */
  lemma AggregatePermutation(s1: seq<ClickRow>, s2: seq<ClickRow>)
    requires multiset(s1) == multiset(s2)
    ensures Aggregate(s1) == Aggregate(s2)
  {
    var a1, a2 := Aggregate(s1), Aggregate(s2);
    forall key | key in DimensionKeys ensures a1[key] == a2[key] {
      var d := DimensionOfKey(key);
      ColumnPermutation(s1, s2, d);
      TallyPermutation(Column(s1, d), Column(s2, d));
    }
  }
}

=== FILE: tracking.dfy ===
/** The click-event buffer of api/helpers/tracking.go: an in-memory count
    of buffered events next to a Redis list (key `track_event`) that holds
    the encoded events, newest first, until a flush hands them to the
    analytical store. Every step is one sequential transition of the pair. */
module Tracking {
  import opened Wrappers
  import opened Schema
  import opened RedisModel
  import opened EventCodec
  import opened Timescale
  import Strconv

  // The event list is the Redis list under the key "track_event"; the
  // model holds that one list directly, so the key itself never appears.

  /** `TrackerType` without its mutex; `flushFrequency` is in nanoseconds. */
  datatype Tracker = Tracker(maxEvents: int, eventsLength: int, flushFrequency: int)

  /** The tracker and the Redis list it drains. */
  datatype TrackerState = TrackerState(tracker: Tracker, list: seq<string>)

  /** The arguments of `CaptureRedirectEvent`. */
  datatype CaptureRequest = CaptureRequest(
    device: string,
    ip: string,
    os: string,
    referrer: string,
    urlId: string,
    timestamp: int)

  /** The geography placeholder every captured event carries. */
  const GeoPlaceholder: string := "null"

  /** The event a capture records: the request's fields with the geography
      fixed to the placeholder. The client address is not recorded. */
  function EventOf(req: CaptureRequest): (e: ClickEvent)
    ensures e.urlId == req.urlId && e.device == req.device && e.os == req.os
    ensures e.referrer == req.referrer && e.timestamp == req.timestamp
    ensures e.geo == GeoPlaceholder
  {
    ClickEvent(req.urlId, GeoPlaceholder, req.device, req.os, req.referrer, req.timestamp)
  }

  /** `bson.Unmarshal` into a fresh `ClickEvent` with the error ignored.
      The stand-in codec decodes all or nothing: an entry it cannot read
      yields the zero event. */
  function DecodeEntry(entry: string): ClickEvent {
    match Decode(entry)
    case Some(e) => e
    case None => ZeroEvent
  }

  /** The batch built from the read entries, in list order. */
  function DecodeAll(entries: seq<string>): (evs: seq<ClickEvent>)
    ensures |evs| == |entries|
    ensures forall i :: 0 <= i < |entries| ==> evs[i] == DecodeEntry(entries[i])
  {
    if entries == [] then [] else [DecodeEntry(entries[0])] + DecodeAll(entries[1..])
  }

  /** The result of one flush: the new state, the entries read from the list
      and the batch handed to `flushToDB`. */
  datatype FlushOutcome = FlushOutcome(state: TrackerState, read: seq<string>, batch: seq<ClickEvent>)

  /** `flush` as written: `LRANGE track_event 0 eventsLength` (stop
      inclusive), then `LTRIM track_event eventsLength -1`, then the count is
      reset. It reads the first `eventsLength + 1` entries but removes only
      the first `eventsLength`. */
  function Flush(s: TrackerState): (o: FlushOutcome)
    ensures o.state.tracker == s.tracker.(eventsLength := 0)
    ensures o.batch == DecodeAll(o.read)
    ensures var e := s.tracker.eventsLength;
            e >= 0 ==> o.read == s.list[..Min(e + 1, |s.list|)] && o.state.list == s.list[Min(e, |s.list|)..]
  {
    var e := s.tracker.eventsLength;
    var read := LRange(s.list, 0, e);
    var kept := LTrim(s.list, e, -1);
    FlushOutcome(TrackerState(s.tracker.(eventsLength := 0), kept), read, DecodeAll(read))
  }

  /** Read and trim compared: every removed entry was read, at most one more
      entry was read than removed, and when the list is longer than the
      count the entry at index `eventsLength` is both flushed and kept. */
  lemma FlushReadVersusTrim(s: TrackerState)
    requires s.tracker.eventsLength >= 0
    ensures var o, e := Flush(s), s.tracker.eventsLength;
            var removed := s.list[..Min(e, |s.list|)];
            && removed <= o.read
            && |o.read| - |removed| <= 1
            && removed + o.state.list == s.list
            && (|s.list| > e ==> |o.read| == e + 1 && o.read[e] == s.list[e] && o.state.list[0] == s.list[e])
  {
    var o, e, l := Flush(s), s.tracker.eventsLength, s.list;
    var m := Min(e, |l|);
    assert o.read == l[..Min(e + 1, |l|)];
    assert o.state.list == l[m..];
    assert l[..m] + l[m..] == l;
  }

  /** A timer tick on an idle counter over a non-empty list flushes the head
      entry and leaves the list as it was. */
  lemma IdleTickFlushesHead(s: TrackerState)
    requires s.tracker.eventsLength == 0 && |s.list| > 0
    ensures Flush(s).read == [s.list[0]]
    ensures Flush(s).state.list == s.list
  {
  }

  /** `flush` as evidently intended: read exactly the entries it removes,
      `LRANGE 0 eventsLength-1` then `LTRIM eventsLength -1`, nothing when
      the count is not positive (`LRANGE 0 -1` would mean the whole list). */
  function FlushFixed(s: TrackerState): (o: FlushOutcome)
    ensures o.state.tracker == s.tracker.(eventsLength := 0)
    ensures o.batch == DecodeAll(o.read)
    ensures o.read + o.state.list == s.list
    ensures |o.read| == if s.tracker.eventsLength <= 0 then 0 else Min(s.tracker.eventsLength, |s.list|)
  {
    var e := s.tracker.eventsLength;
    if e <= 0 then
      FlushOutcome(TrackerState(s.tracker.(eventsLength := 0), s.list), [], [])
    else
      var read := LRange(s.list, 0, e - 1);
      var kept := LTrim(s.list, e, -1);
      FlushOutcome(TrackerState(s.tracker.(eventsLength := 0), kept), read, DecodeAll(read))
  }

  /** What one capture did: the new state and, when the threshold was
      reached, the flush it ran. */
  datatype CaptureOutcome = CaptureOutcome(state: TrackerState, flushed: Option<FlushOutcome>)

  /** The push half of a capture: `LPUSH` of the encoded event and the
      count incremented by one. */
  function Push(s: TrackerState, req: CaptureRequest): (t: TrackerState)
    ensures t.list == [Encode(EventOf(req))] + s.list
    ensures t.tracker == s.tracker.(eventsLength := s.tracker.eventsLength + 1)
  {
    TrackerState(s.tracker.(eventsLength := s.tracker.eventsLength + 1), LPush(s.list, Encode(EventOf(req))))
  }

  /** `CaptureRedirectEvent`: push, then flush exactly when the incremented
      count has reached `maxEvents`. */
  function CaptureRedirectEvent(s: TrackerState, req: CaptureRequest): (o: CaptureOutcome)
    ensures o.flushed.Some? <==> s.tracker.eventsLength + 1 >= s.tracker.maxEvents
    ensures o.flushed.None? ==> o.state == Push(s, req)
    ensures o.flushed.Some? ==> o.flushed.value == Flush(Push(s, req)) && o.state == o.flushed.value.state
  {
    var pushed := Push(s, req);
    if pushed.tracker.eventsLength >= pushed.tracker.maxEvents then
      var f := Flush(pushed);
      CaptureOutcome(f.state, Some(f))
    else
      CaptureOutcome(pushed, None)
  }

  /** The same capture with the corrected flush. */
  function CaptureRedirectEventFixed(s: TrackerState, req: CaptureRequest): (o: CaptureOutcome)
    ensures o.flushed.Some? <==> s.tracker.eventsLength + 1 >= s.tracker.maxEvents
    ensures o.flushed.None? ==> o.state == Push(s, req)
    ensures o.flushed.Some? ==> o.flushed.value == FlushFixed(Push(s, req)) && o.state == o.flushed.value.state
  {
    var pushed := Push(s, req);
    if pushed.tracker.eventsLength >= pushed.tracker.maxEvents then
      var f := FlushFixed(pushed);
      CaptureOutcome(f.state, Some(f))
    else
      CaptureOutcome(pushed, None)
  }

  /** What `flushToDB` did with a batch. */
  datatype FlushToDbOutcome = Skipped | Stored(table: seq<ClickRow>) | Fatal(error: string)

  /** `flushToDB`: an empty batch touches nothing; otherwise one bulk insert,
      whose failure ends the process (`log.Fatal`). */
  function FlushToDB(table: seq<ClickRow>, batch: seq<ClickEvent>, conn: Connection): (r: FlushToDbOutcome)
    ensures r.Skipped? <==> batch == []
    ensures r.Stored? <==> batch != [] && conn.Executes?
    ensures r.Fatal? <==> batch != [] && !conn.Executes?
    ensures batch != [] && conn.ConnectFails? ==> r == Fatal(conn.connectError)
    ensures batch != [] && conn.ExecFails? ==> r == Fatal(conn.execError)
    ensures r.Stored? ==> |r.table| == |table| + |batch| && r.table[..|table|] == table &&
                          forall i :: 0 <= i < |batch| ==> ReadBack(r.table[|table| + i]) == batch[i]
  {
    if |batch| == 0 then Skipped
    else match InsertClickEventsBulk(table, batch, conn)
      case Ok(t) => Stored(t)
      case Err(e) => Fatal(e)
  }

  /** `SetupTracker(dur, maxEvents, eventsLength)`: the list loses its first
      `eventsLength` entries and a fresh tracker takes the arguments. */
  function SetupTracker(list: seq<string>, dur: int, maxEvents: int, eventsLength: int): (s: TrackerState)
    ensures s.tracker == Tracker(maxEvents, eventsLength, dur)
    ensures eventsLength >= 0 ==> s.list == list[Min(eventsLength, |list|)..]
  {
    TrackerState(Tracker(maxEvents, eventsLength, dur), LTrim(list, eventsLength, -1))
  }

  /** `StartFlush` over `n` timer ticks: the state after them and the
      batches they handed on, in order. */
  function Ticks(s: TrackerState, n: nat): (TrackerState, seq<seq<ClickEvent>>)
    decreases n
  {
    if n == 0 then (s, [])
    else
      var f := Flush(s);
      var (t, bs) := Ticks(f.state, n - 1);
      (t, [f.batch] + bs)
  }

  /** A process restarted with `SetupTracker(_, _, 0)` over `k > 0` entries
      left in the list flushes the head entry again on every tick. */
  lemma {:induction false} RestartTicksRepeatHead(list: seq<string>, dur: int, maxEvents: int, n: nat)
    requires |list| > 0
    ensures var (t, bs) := Ticks(SetupTracker(list, dur, maxEvents, 0), n);
            |bs| == n && t.list == list && forall i :: 0 <= i < n ==> bs[i] == [DecodeEntry(list[0])]
  {
    var s := SetupTracker(list, dur, maxEvents, 0);
    assert s.list == list;
    TicksOnIdle(s, n);
  }

  lemma {:induction false} TicksOnIdle(s: TrackerState, n: nat)
    requires s.tracker.eventsLength == 0 && |s.list| > 0
    ensures var (t, bs) := Ticks(s, n);
            |bs| == n && t.list == s.list && forall i :: 0 <= i < n ==> bs[i] == [DecodeEntry(s.list[0])]
    decreases n
  {
    if n > 0 {
      var f := Flush(s);
      IdleTickFlushesHead(s);
      TicksOnIdle(f.state, n - 1);
    }
  }

  /** The counter agrees with the list: the state capture and flush keep
      when nothing else writes the list. */
  predicate Consistent(s: TrackerState) {
    s.tracker.eventsLength == |s.list|
  }

  /** While the counter agrees with the list, the written flush drains the
      whole list exactly once: nothing is read twice, nothing is left. */
  lemma ConsistentFlushDrains(s: TrackerState)
    requires Consistent(s)
    ensures Flush(s).read == s.list && Flush(s).state.list == []
    ensures Consistent(Flush(s).state)
  {
  }

  lemma CaptureKeepsConsistent(s: TrackerState, req: CaptureRequest)
    requires Consistent(s)
    ensures Consistent(CaptureRedirectEvent(s, req).state)
    ensures var o := CaptureRedirectEvent(s, req);
            o.flushed.Some? ==> o.flushed.value.read == [Encode(EventOf(req))] + s.list
  {
    var p := Push(s, req);
    assert Consistent(p);
    if p.tracker.eventsLength >= p.tracker.maxEvents {
      ConsistentFlushDrains(p);
    }
  }

  /** The encoded entries a run of captures pushes. */
  function Entries(reqs: seq<CaptureRequest>): (es: seq<string>)
    ensures |es| == |reqs|
    ensures forall i :: 0 <= i < |reqs| ==> es[i] == Encode(EventOf(reqs[i]))
  {
    if reqs == [] then [] else [Encode(EventOf(reqs[0]))] + Entries(reqs[1..])
  }

  /** A run of captures: the final state and every entry its flushes read.
      As long as the counter starts equal to the list length, it stays so,
      and no entry is lost or read twice: entries read plus entries left are
      the entries there were plus the entries pushed. */
  function CaptureRun(s: TrackerState, reqs: seq<CaptureRequest>): (r: (TrackerState, seq<string>))
    ensures Consistent(s) ==> Consistent(r.0)
    ensures Consistent(s) ==> multiset(r.1) + multiset(r.0.list) == multiset(s.list) + multiset(Entries(reqs))
    decreases |reqs|
  {
    if reqs == [] then (s, [])
    else
      var o := CaptureRedirectEvent(s, reqs[0]);
      var (t, read) := CaptureRun(o.state, reqs[1..]);
      if Consistent(s) then
        CaptureConsistentStep(s, reqs[0]);
        EntriesCons(reqs);
        Regroup(FlushedRead(o), read, t.list, o.state.list, s.list, Entries(reqs)[..1], Entries(reqs)[1..]);
        (t, FlushedRead(o) + read)
      else
        (t, FlushedRead(o) + read)
  }

  /** The same run with the corrected flush, which conserves entries from
      any starting state, whatever the counter says. */
  function CaptureRunFixed(s: TrackerState, reqs: seq<CaptureRequest>): (r: (TrackerState, seq<string>))
    ensures multiset(r.1) + multiset(r.0.list) == multiset(s.list) + multiset(Entries(reqs))
    decreases |reqs|
  {
    if reqs == [] then (s, [])
    else
      var o := CaptureRedirectEventFixed(s, reqs[0]);
      var (t, read) := CaptureRunFixed(o.state, reqs[1..]);
      CaptureFixedStep(s, reqs[0]);
      EntriesCons(reqs);
      Regroup(FlushedRead(o), read, t.list, o.state.list, s.list, Entries(reqs)[..1], Entries(reqs)[1..]);
      (t, FlushedRead(o) + read)
  }

  /** The entries one capture's flush read, if it flushed. */
  function FlushedRead(o: CaptureOutcome): seq<string> {
    if o.flushed.Some? then o.flushed.value.read else []
  }

  /** One capture with the corrected flush: what it read plus what is left
      is what there was plus the pushed entry. */
  lemma CaptureFixedStep(s: TrackerState, req: CaptureRequest)
    ensures var o := CaptureRedirectEventFixed(s, req);
            multiset(FlushedRead(o)) + multiset(o.state.list) == multiset(s.list) + multiset(Entries([req]))
  {
    var o := CaptureRedirectEventFixed(s, req);
    var p := Push(s, req);
    assert FlushedRead(o) + o.state.list == p.list;
    assert p.list == Entries([req]) + s.list;
    assert multiset(FlushedRead(o) + o.state.list) == multiset(p.list);
  }

  lemma EntriesCons(reqs: seq<CaptureRequest>)
    requires reqs != []
    ensures Entries(reqs)[..1] == Entries(reqs[..1]) && Entries(reqs)[1..] == Entries(reqs[1..])
    ensures Entries(reqs) == Entries(reqs)[..1] + Entries(reqs)[1..]
  {
  }

  /** The multiset bookkeeping that chains one step onto the rest of a run. */
  lemma Regroup(here: seq<string>, later: seq<string>, final: seq<string>, mid: seq<string>,
                first: seq<string>, pushed1: seq<string>, pushedRest: seq<string>)
    requires multiset(later) + multiset(final) == multiset(mid) + multiset(pushedRest)
    requires multiset(here) + multiset(mid) == multiset(first) + multiset(pushed1)
    ensures multiset(here + later) + multiset(final) == multiset(first) + multiset(pushed1 + pushedRest)
  {
    calc {
      multiset(here + later) + multiset(final);
      multiset(here) + (multiset(later) + multiset(final));
      multiset(here) + (multiset(mid) + multiset(pushedRest));
      (multiset(here) + multiset(mid)) + multiset(pushedRest);
      (multiset(first) + multiset(pushed1)) + multiset(pushedRest);
      multiset(first) + multiset(pushed1 + pushedRest);
    }
  }

  lemma CaptureConsistentStep(s: TrackerState, req: CaptureRequest)
    requires Consistent(s)
    ensures var o := CaptureRedirectEvent(s, req);
            Consistent(o.state) &&
            multiset(FlushedRead(o)) + multiset(o.state.list) == multiset(s.list) + multiset(Entries([req]))
  {
    var o := CaptureRedirectEvent(s, req);
    var p := Push(s, req);
    CaptureKeepsConsistent(s, req);
    if o.flushed.Some? {
      ConsistentFlushDrains(p);
    }
    assert FlushedRead(o) + o.state.list == p.list;
    assert p.list == Entries([req]) + s.list;
    assert multiset(FlushedRead(o) + o.state.list) == multiset(p.list);
  }

  /** `k` captures from an empty buffer followed by one timer flush hand
      exactly the `k` events to the analytical store, each once. */
  lemma CapturesThenTickDeliverEach(s: TrackerState, reqs: seq<CaptureRequest>)
    requires Consistent(s) && s.list == []
    requires forall i :: 0 <= i < |reqs| ==> Strconv.MinInt64 <= reqs[i].timestamp <= Strconv.MaxInt64
    ensures var r := CaptureRun(s, reqs);
            multiset(r.1 + Flush(r.0).read) == multiset(Entries(reqs)) && Flush(r.0).state.list == []
    ensures forall i :: 0 <= i < |reqs| ==> DecodeEntry(Entries(reqs)[i]) == EventOf(reqs[i])
  {
    var r := CaptureRun(s, reqs);
    ConsistentFlushDrains(r.0);
    assert multiset(r.1 + Flush(r.0).read) == multiset(r.1) + multiset(r.0.list);
    forall i | 0 <= i < |reqs| ensures DecodeEntry(Entries(reqs)[i]) == EventOf(reqs[i]) {
      DecodeEncode(EventOf(reqs[i]));
    }
  }
}

=== FILE: wrappers.dfy ===
/** Failure-carrying datatypes shared by the other modules: Go's `(T, error)`
    return pairs become `Result`, and nil-able lookups become `Option`. */
module Wrappers {

  datatype Option<+T> = None | Some(value: T)

  datatype Result<+T, +E> = Ok(value: T) | Err(error: E)
}
